=== FILE: README.md ===
# Playback bridge model

This project is a Dafny model of the core of a React Native audio playback
bridge. A JavaScript `Player` object holds a player id and a table of event
listeners, and sends commands to a native module. The native side keeps a
registry from player ids to playback sessions:

- on iOS, `Playback` holds sessions of `Player` over `AVPlayer`, and each session owns a
  `PlayerObserver` for key-value observation, the periodic time observer
  and notification-center entries;
- on Android, `PlaybackModule` holds sessions of `Player` over ExoPlayer.

Sessions report what the engine does as `playerEvent` bodies of the form
`{playerId, eventType, ...data}`. The JavaScript wrapper keeps only the
events for its own id, maps each `eventType` code to a listener name, and
calls the listeners registered under that name in order.

The model has these modules:

- `Values`, `Events`, `Sources`, `Bridge`: the bridged value shapes, the
  closed set of event codes and the event body, the source dictionary, and
  the promise replies.
- `AvEngine`, `AvEvents`: the pure decisions of an iOS session. These cover
  the asset and headers a source yields, the engine calls a load makes, the
  seek guard, the loop-at-end calls, and how each native condition becomes
  an event.
- `Observer`: the iOS `PlayerObserver` as a class, together with the
  notification-center entries as a sequence and lemmas about
  `attachPlayerEventListeners`.
- `AvPlayer`: the iOS session as a class. One `variant` field covers both
  ios/Player.swift and its older copy Player.swift.
- `AndroidPlayer`: the Android session as a class, with its listener
  callbacks and the self-reposting progress runnable.
- `IosModule`, `AndroidModule`: the two registries, each holding a map of
  session objects.
- `SourceEquality`: `shallowEqualObjects` as a loop, and `sourceEqualityFn`.
- `JsEvents`, `JsModule`, `JsPlayer`, `LegacyJsPlayer`: event dispatch and
  listener lists, the module calls, and the two JavaScript wrappers.

Engines are identities. The calls a session makes on its engine go to a
ghost log, and whatever the engine reports (positions, durations, item
status, rates, errors) arrives as a method parameter. Each block that the
source schedules on the main or UI thread runs as one atomic step. The emitter
is always present, and events sent through it are appended to a `sent`
sequence.

## Model

| member | source | states |
|---|---|---|
| Events.EventBody | ios/Player.swift:306-319 | The event body has exactly the keys `playerId`, `eventType` and the data's keys. Data entries win, and otherwise `eventType` is the code's name and `playerId` is the id or null. Player.swift:282-295 is the same. |
| AvEngine.MergeHeaders | ios/Player.swift:76-80 | The merged header map has the keys of both maps, and the incoming value wins on a clash. |
| AvEngine.RequestHeaders | ios/Player.swift:76-80 | The request headers are exactly the source's headers, or empty when it has none. |
| AvEngine.AssetFor | ios/Player.swift:82-92 | There is no asset exactly when the url is missing. The asset is remote exactly for an `http://` or `https://` url, and then carries the request headers. Any other url gives a file asset of that path. |
| AvEngine.LoadCommandsSpec | ios/Player.swift:100-119 | A load installs the item first. It plays exactly when autoplay is true and pauses otherwise. It re-asserts the end action only in the current copy. It sets a volume exactly when the source has one, as the last call. It never seeks. |
| AvEngine.SeekPlanFor | ios/Player.swift:150-176 | An engine seek is issued if and only if there is an engine, a time, a tolerance, and a ready current item whose position differs from the target. The seek uses that target and tolerance. |
| AvEngine.LoopCommands | ios/Player.swift:266-278 | Without looping or without an ended item there are no calls. With both, there is exactly one rewind of the ended item to zero, first, followed by exactly one play when there is an engine and nothing more. |
| AvEvents.RateEvent | ios/Player.swift:185-191 | Rate 1 gives `ON_PLAY` and rate 0 gives `ON_PAUSE`, each in both directions. Any other rate sends nothing. |
| AvEvents.StatusEvent | ios/Player.swift:193-231 | An unknown status sends nothing. A ready item gives `ON_LOAD` with its load data, and a failed item gives `ON_ERROR` with its error's code and description, each in both directions. |
| AvEvents.LoadedTimeRangesEvent | ios/Player.swift:245-251 | No ranges send nothing. Otherwise the event is `ON_BUFFERING`, whose only key `progress` is the end of the first range. |
| AvEvents.FailedToPlayToEndEvent | ios/Player.swift:253-260 | An event is sent exactly when the notification carries an error, and then it is `ON_ERROR` with that error. |
| AvEvents.RouteChangeEvent | ios/Player.swift:280-289 | `ON_BECOME_NOISY` is sent exactly for the reasons old-device-unavailable (2) and override (4). |
| Observer.ProgressIntervalSeconds | ios/PlayerObserver.swift:95-104 | The interval every added periodic observer is registered with is 0.25 s, because the 250 ms interval is divided by 1000. |
| Observer.RemoveMatching | ios/PlayerObserver.swift:113-141 | `removeObserver(_:name:object:)` keeps exactly the entries that do not match the name and, when the object is not nil, the sender. |
| Observer.SelectorFor | ios/PlayerObserver.swift:119-122 | No notification is routed to `playerItemDidReachEnd`. |
| Observer.AttachedShape | ios/PlayerObserver.swift:113-141 | After attaching, the entries are the old ones with every match of the three removals gone, followed by the three new entries in order. |
| Observer.AttachedLeavesOneOfEach | ios/PlayerObserver.swift:113-141 | After attaching there is exactly one end-of-item entry for the current item and exactly one entry each for stalled and route change. No other stalled or route-change entry remains. |
| Observer.AttachedIdempotent | ios/PlayerObserver.swift:113-141 | Attaching twice for the same item leaves the same entries as attaching once. |
| Observer.AttachedReceives | ios/PlayerObserver.swift:113-141 | After attaching, every stalled and route-change notification is received. An end-of-item notification is received when it is about the attached item, or about any item when none was attached. |
| Observer.StrippedAfterAttach | ios/PlayerObserver.swift:113-141 | The three removals delete exactly the three entries a previous attach added. |
| Observer.ReceiversBounds | ios/PlayerObserver.swift:113-141 | The handler runs no more often than there are entries, and not at all exactly when no entry receives the notification. |
| Observer.BothEndEntriesReceive | ios/PlayerObserver.swift:113-122 | An end-of-item entry for any sender (attached while the observer had no player) and one for item k can both be held. A notification about item k then reaches the handler twice. |
| Observer.PlayerObserver.constructor | ios/PlayerObserver.swift:23-59 | The observer starts with no player, no item, no observations, no time observer and no entries. |
| Observer.PlayerObserver.AddPlayerObservers | ios/PlayerObserver.swift:67-71 | The current player is observed only when there is a player and a handler. Nothing else changes. |
| Observer.PlayerObserver.RemovePlayerObservers | ios/PlayerObserver.swift:73-76 | The player observations are invalidated. Nothing else changes. |
| Observer.PlayerObserver.AddPlayerItemObservers | ios/PlayerObserver.swift:78-85 | The current item is observed only when there is an item and a handler. Nothing else changes. |
| Observer.PlayerObserver.RemovePlayerItemObservers | ios/PlayerObserver.swift:87-93 | The item observations are invalidated. Nothing else changes. |
| Observer.PlayerObserver.AddPlayerTimeObserver | ios/PlayerObserver.swift:95-104 | With a handler, the time-observer calls are exactly the removal of the previous token (if any), then one add of a 0.25 s periodic observer on the current player (if any). The installed count is kept by adding one, and stays at most one. Without a handler nothing changes. |
| Observer.PlayerObserver.RemovePlayerTimeObserver | ios/PlayerObserver.swift:106-111 | With a token, exactly one removal from the player that token is on is made. Afterwards no token is left and no observer is installed. Without a token the call changes nothing. |
| Observer.PlayerObserver.SetPlayer | ios/PlayerObserver.swift:26-37 | Assigning the player tears down the old player observations and removes the old time observer. Both are re-established on the new player only when it is not nil, so the time-observer calls are the removal followed by at most one add. |
| Observer.PlayerObserver.SetPlayerItem | ios/PlayerObserver.swift:38-47 | Assigning the item tears down the old item observations. They are re-established only when the new item is not nil. |
| Observer.PlayerObserver.AttachPlayerEventListeners | ios/PlayerObserver.swift:113-141 | With a handler, each of the three notifications is removed and then added again, for the current item or for any sender. Without a handler nothing changes. |
| Observer.PlayerObserver.ClearPlayer | ios/PlayerObserver.swift:143-149 | Afterwards there is no player, no item, no observation, no time observer and no notification entry. The only time-observer call is the removal of the old token. |
| AvPlayer.Player.constructor | ios/Player.swift:14-24 | A new session is exactly in `InitialState`. Its fresh engine allows external playback and holds at the end of an item. Its fresh observer, whose handler it is, watches nothing. There is no item and no volume, nothing is sent or pending, and the session is neither paused, disposed nor looping. |
| AvPlayer.Player.Sends | ios/Player.swift:306-319 | A send emits exactly one body, carrying `eventType` and `playerId`, when there is an event, and none otherwise. |
| AvPlayer.Player.Dispose | ios/Player.swift:30-56 | Dispose takes effect once, and the whole session is left in `DisposedState`. It pauses the engine, detaches its item and drops it, removes every notification entry, observation and time observer (one removal call for a live token), and clears `paused` and `loop`. Volume, events sent, pending seeks and queued attaches are kept. A second call changes nothing. |
| AvPlayer.Player.DisposeOnce | ios/Player.swift:37-51 | The guarded body of dispose leaves the whole session, observer included, in `DisposedState` of the state before it. |
| AvPlayer.Player.ReleaseEngine | ios/Player.swift:39-51 | The session's half of the guarded body. It marks the session disposed, pauses and empties the engine (when there is one) and drops it, and resets `paused` and `loop`. Every other field keeps its value. |
| AvPlayer.Player.SetSource | ios/Player.swift:66-125 | The whole session is left in `SourceSetState`. The observer always lets go of the engine and the item, removing its time observer. Without a url nothing else changes. With a url, one fresh item is observed and loaded, by exactly the `LoadCommands` calls, into the engine if there is one. The engine is observed again, with one new 0.25 s periodic observer. `paused` becomes "autoplay is not true", and the volume is taken from the source when present. Player.swift:52-104 is the older copy, which omits the end-action call. |
| AvPlayer.Player.LoadSource | ios/Player.swift:82-120 | The url branch of setSource. It has the same effects on the item, engine calls, `paused` and volume. The new item and the engine are both observed, and the time-observer log gains exactly one add when there is an engine. |
| AvPlayer.Player.Play | ios/Player.swift:127-132 | `paused` is cleared, and the engine plays exactly when it exists. |
| AvPlayer.Player.Pause | ios/Player.swift:134-138 | `paused` is set, and the engine pauses exactly when it exists. |
| AvPlayer.Player.SetVolume | ios/Player.swift:140-144 | The volume is remembered and is applied to the engine exactly when it exists. |
| AvPlayer.Player.SetLoop | ios/Player.swift:146-148 | Only the loop flag changes. |
| AvPlayer.Player.Seek | ios/Player.swift:150-176 | The engine seeks, and one completion is awaited, exactly when `SeekPlanFor` allows it. A disposed session never seeks. |
| AvPlayer.Player.SeekCompleted | ios/Player.swift:165-173 | The oldest pending seek completes by sending `ON_SEEK` with the current position as a number and that seek's target as a boxed time, not a number. |
| AvPlayer.Player.HandleTimeUpdate | ios/Player.swift:178-183 | `ON_PROGRESS` is sent with the position and the item's duration, or 0 without an item. |
| AvPlayer.Player.HandlePlaybackRateChange | ios/Player.swift:185-191 | The event is exactly `RateEvent` of the new rate. |
| AvPlayer.Player.HandlePlayerItemStatusChange | ios/Player.swift:193-223 | The event is `StatusEvent`. A ready item gets the listeners attached: inline before `ON_LOAD` in the older copy (Player.swift:183-199), and queued after it in the current copy. No observation, time observer or session field other than the queue changes. |
| AvPlayer.Player.RunPendingAttach | ios/Player.swift:204-223 | A queued attach runs with the current item as it is at that moment. Only the notification entries and the queue change. |
| AvPlayer.Player.HandleTimeMetadataChange | ios/Player.swift:233-235 | `ON_TIMED_METADATA` is sent without data. |
| AvPlayer.Player.HandleBufferingChange | ios/Player.swift:237-243 | Both buffer handlers send `ON_BUFFERING` without data. |
| AvPlayer.Player.HandleLoadedTimeRanges | ios/Player.swift:245-251 | The event is exactly `LoadedTimeRangesEvent` of the ranges. |
| AvPlayer.Player.HandlePlayerItemDidReachEnd | ios/Player.swift:253-260 | Only a failure carried in the notification is reported. |
| AvPlayer.Player.HandlePlaybackStalled | ios/Player.swift:262-264 | `ON_STALLED` is sent without data. |
| AvPlayer.Player.HandleAudioRouteChange | ios/Player.swift:280-289 | The event is exactly `RouteChangeEvent` of the reason. |
| AvPlayer.Player.PlayerItemDidReachEnd | ios/Player.swift:266-278 | `ON_END` is always sent. Without looping the periodic observer is removed, with exactly one removal call. With looping the engine gets exactly the `LoopCommands` calls. The key-value observations are untouched either way. |
| AvPlayer.Player.Notify | ios/PlayerObserver.swift:113-141 | For each entry that receives the notification, in order, the routed handler runs once. The events sent are that handler's event repeated once per receiving entry. A normal end of item therefore sends nothing at all, never `ON_END`, and never loops. |
| AvPlayer.Player.RunRoutedHandler | ios/PlayerObserver.swift:119-140 | One run of the handler named for the notification sends exactly its routed event and changes nothing else. |
| AvPlayer.EndOfItemIsSilent | ios/Player.swift:253-260 | A normal end of item is routed to the failure-only handler, and however many entries receive it, nothing is sent. |
| AndroidPlayer.TruncateToLong | android/src/main/java/com/playback/Player.java:262-268 | `(long)` truncates toward zero: the result lies within 1 of x, on zero's side. |
| AndroidPlayer.PlaybackStateEvent | android/src/main/java/com/playback/Player.java:91-133 | Idle gives `ON_STALLED`, buffering gives `ON_BUFFERING`, ready gives `ON_LOAD` with every capability flag true, and ended gives `ON_END`, each in both directions. Any other state sends nothing. |
| AndroidPlayer.IsPlayingEvent | android/src/main/java/com/playback/Player.java:136-147 | `ON_PLAY` is sent exactly when playing starts and `ON_PAUSE` exactly when it stops, without data. |
| AndroidPlayer.ErrorEvent | android/src/main/java/com/playback/Player.java:150-173 | The event is always `ON_ERROR`. The code and message are attached exactly for a non-null error, and a null message becomes null. |
| AndroidPlayer.SourceCommandsSpec | android/src/main/java/com/playback/Player.java:207-229 | A load sets and prepares the item first. It plays when ready exactly when autoplay is true. It sets a volume exactly when the source has one, as the last call. It never plays, pauses or seeks. |
| AndroidPlayer.Player.constructor | android/src/main/java/com/playback/Player.java:38-190 | A new session is exactly in `InitialState`: a fresh engine with the listener attached, volume 0, not paused, looping or playing, and nothing pending or sent. |
| AndroidPlayer.Player.Dispose | android/src/main/java/com/playback/Player.java:192-205 | Dispose leaves the session in `DisposedState`. It releases the engine and removes the listener exactly when there is an engine. It always cancels pending progress ticks and resets `paused`, `loop` and volume to 1. The playing flag and the events sent are kept. |
| AndroidPlayer.Player.SetSource | android/src/main/java/com/playback/Player.java:207-229 | Without an engine nothing changes. Otherwise the engine gets exactly the `SourceCommands` calls, `paused` becomes "autoplay is not true", and a present volume is stored. |
| AndroidPlayer.Player.Play | android/src/main/java/com/playback/Player.java:231-238 | `paused` is cleared, and the engine plays exactly when it exists. |
| AndroidPlayer.Player.Pause | android/src/main/java/com/playback/Player.java:240-247 | `paused` is set, and the engine pauses exactly when it exists. |
| AndroidPlayer.Player.SetVolume | android/src/main/java/com/playback/Player.java:249-256 | The volume is stored and is applied to the engine exactly when it exists. |
| AndroidPlayer.Player.SetLoop | android/src/main/java/com/playback/Player.java:258-260 | Only the loop flag changes. |
| AndroidPlayer.Player.Seek | android/src/main/java/com/playback/Player.java:262-268 | When the engine exists it seeks to the time in milliseconds, truncated. |
| AndroidPlayer.Player.OnPlaybackStateChanged | android/src/main/java/com/playback/Player.java:91-133 | Exactly the body of `PlaybackStateEvent` is sent, if there is one. |
| AndroidPlayer.Player.OnIsPlayingChanged | android/src/main/java/com/playback/Player.java:136-147 | The play or pause event is sent. Starting adds one progress post, and stopping cancels every post. |
| AndroidPlayer.Player.RunProgressTick | android/src/main/java/com/playback/Player.java:53-65 | A tick sends `ON_PROGRESS` with the position and duration and re-posts itself, keeping the count of pending ticks. The invariant holds that ticks are pending only while an engine plays. |
| AndroidPlayer.Player.OnPlayerError | android/src/main/java/com/playback/Player.java:150-173 | Exactly the body of `ErrorEvent` is sent. |
| AndroidModule.PlaybackModule.constructor | android/src/main/java/com/playback/PlaybackModule.java:36-39 | The registry starts empty. |
| AndroidModule.PlaybackModule.CreatePlayer | android/src/main/java/com/playback/PlaybackModule.java:47-52 | A fresh session in `InitialState` is stored under the id, replacing any previous one, and no other id changes. The reply resolves with the id. |
| AndroidModule.PlaybackModule.DisposePlayer | android/src/main/java/com/playback/PlaybackModule.java:54-64 | An unknown id is rejected with `E_PLAYER_NOT_FOUND` and changes nothing. Otherwise the session is left in `DisposedState`: released with its listener removed if it had an engine, no ticks, and `paused`, `loop` and volume reset to false, false and 1. Exactly that id is removed, and the reply resolves null. |
| AndroidModule.PlaybackModule.SetSource | android/src/main/java/com/playback/PlaybackModule.java:66-75 | An unknown id is rejected. Otherwise the source is forwarded once. A session without an engine is left as it was. With an engine, the session gets exactly the `SourceCommands` calls, and `paused` and the volume follow the source. Nothing else in the session changes, and the registry keeps its entries. |
| AndroidModule.PlaybackModule.Play | android/src/main/java/com/playback/PlaybackModule.java:77-86 | An unknown id is rejected. Otherwise the session plays once: `paused` is cleared and at most one engine play is made. Nothing else in the session changes. |
| AndroidModule.PlaybackModule.Pause | android/src/main/java/com/playback/PlaybackModule.java:88-97 | An unknown id is rejected. Otherwise the session pauses once: `paused` is set and at most one engine pause is made. Nothing else in the session changes. |
| AndroidModule.PlaybackModule.SetLoop | android/src/main/java/com/playback/PlaybackModule.java:99-108 | An unknown id is rejected. Otherwise only the session's loop flag changes. |
| AndroidModule.PlaybackModule.SetVolume | android/src/main/java/com/playback/PlaybackModule.java:110-119 | An unknown id is rejected. Otherwise the volume is stored and at most one engine volume call is made. Nothing else in the session changes. |
| AndroidModule.PlaybackModule.Seek | android/src/main/java/com/playback/PlaybackModule.java:121-133 | An unknown id is rejected. Otherwise one callback seek is issued and the reply resolves `{seeked}`. |
| AndroidModule.PlaybackModule.FadeVolume | android/src/main/java/com/playback/PlaybackModule.java:135-144 | An unknown id is rejected. Otherwise one fade is issued and the reply resolves null. |
| AndroidModule.PlaybackModule.OnHostDestroy | android/src/main/java/com/playback/PlaybackModule.java:29-34 | Every registered session is disposed exactly once and left in `DisposedState`, and every id stays registered. |
| IosModule.Playback.constructor | ios/Playback.swift:1-4 | The registry starts empty. |
| IosModule.Playback.CreatePlayer | ios/Playback.swift:10-15 | A fresh session in `InitialState`, observer included, is stored under the id, replacing any previous one, and no other id changes. The reply resolves with the empty string. |
| IosModule.Playback.DisposePlayer | ios/Playback.swift:17-26 | An unknown id is rejected and changes nothing. Otherwise the session and its observer are left in `DisposedState`: engine paused, emptied and dropped, observer cleared, and `paused` and `loop` reset. Exactly that id is removed, and the reply resolves null. |
| IosModule.Playback.SetSource | ios/Playback.swift:28-36 | An unknown id is rejected. Otherwise the source is forwarded once, and the session and its observer are left in exactly `SourceSetState`. Without a url only the observation ends. With a url exactly one new item is built and observed, the engine gets exactly the `LoadCommands` calls for it, and `paused` and the volume follow the source. Loop, disposal, events and pending seeks are untouched. |
| IosModule.Playback.Play | ios/Playback.swift:38-46 | An unknown id is rejected. Otherwise the session plays once: `paused` is cleared and at most one engine play is made. Nothing else in the session or its observer changes. |
| IosModule.Playback.Pause | ios/Playback.swift:48-56 | An unknown id is rejected. Otherwise the session pauses once: `paused` is set and at most one engine pause is made. Nothing else in the session or its observer changes. |
| IosModule.Playback.SetVolume | ios/Playback.swift:58-66 | An unknown id is rejected. Otherwise the volume is stored and at most one engine volume call is made. Nothing else in the session or its observer changes. |
| IosModule.Playback.SetLoop | ios/Playback.swift:68-76 | An unknown id is rejected. Otherwise only the session's loop flag changes. |
| IosModule.Playback.Seek | ios/Playback.swift:78-86 | An unknown id is rejected. Otherwise the seek is forwarded once: the engine seeks and one completion is queued exactly as `SeekPlanFor` allows. Nothing else in the session or its observer changes, and the reply resolves null either way. |
| SourceEquality.ShallowEqualIsEquality | src/sourceEqualityFn.ts:5-37 | Because keys are counted first, the one-way key check is full equality in both directions. |
| SourceEquality.ShallowEqualSymmetric | src/sourceEqualityFn.ts:17-34 | Shallow equality is symmetric, although the loop only walks the first object's keys. |
| SourceEquality.ShallowEqualObjects | src/sourceEqualityFn.ts:5-37 | The loop returns true exactly for equal values. A falsy side or a different key count gives false. |
| SourceEquality.SourceEqual | src/sourceEqualityFn.ts:39-48 | Two sources are equal exactly when both are present and equal. A missing source, even on both sides, is unequal. |
| SourceEquality.SourcesWithoutHeaders | src/sourceEqualityFn.ts:44-47 | Two sources without headers compare by url alone. |
| JsEvents.ListenerNamesOfCodes | src/player.ts:107-141 | Every native event code has a listener name except `ON_EXTERNAL_PLAYER`, and different codes have different names. |
| JsEvents.Payload | src/player.ts:105 | The payload is the body without `playerId` and `eventType`, with every other entry kept. |
| JsEvents.Dispatch | src/player.ts:103-142 | A delivery happens exactly for present data whose `playerId` is this player's and whose `eventType` is a known code. It goes to that code's listener name with the payload. |
| JsEvents.NativeEventDelivery | src/player.ts:103-142 | End to end, a native event for this id reaches its listeners with exactly its data, unless the code is `ON_EXTERNAL_PLAYER`. An event for another id never reaches them. |
| JsEvents.IndexOf | src/player.ts:152 | `indexOf` gives -1 exactly when the element is absent; otherwise the first position holding it. |
| JsEvents.RemoveFirstSpec | src/player.ts:149-155 | `off` removes exactly one occurrence of a registered callback and keeps the rest, as a multiset. |
| JsEvents.OffUndoesOn | src/player.ts:144-155 | `off` after `on` restores the list for a new callback. For one registered before, it removes the earlier registration instead. |
| JsEvents.Deliveries | src/player.ts:157-160 | Emitting calls each listener once, in registration order, with the data. |
| JsModule.DisponseNameNotExported | src/player.ts:42-48 | `disponsePlayer` is exported by neither registry, while `disposePlayer` is exported by both. |
| JsPlayer.Player.constructor | src/player.ts:11-25 | A new wrapper holds the generated id, no source, volume 1, loop off, no listeners and no subscription. |
| JsPlayer.Player.Mount | src/player.ts:27-40 | `createPlayer` is requested with the id, or a new one when the id is empty. On success the wrapper subscribes and emits `created`; on failure the id is cleared. |
| JsPlayer.Player.Disponse | src/player.ts:42-48 | As written, the subscription is dropped and the native module gets no call. |
| JsPlayer.Player.DisponseIntended | src/player.ts:42-48 | Corrected, the native `disposePlayer` is called once with the id. |
| JsPlayer.Player.SetSource | src/player.ts:54-62 | Without an id or a source nothing changes. Otherwise `getSource` returns a copy that `sourceEqualityFn` finds equal to the argument, and the source is forwarded once. |
| JsPlayer.Player.Play | src/player.ts:64-67 | `play` is forwarded exactly when there is an id. |
| JsPlayer.Player.Pause | src/player.ts:69-72 | `pause` is forwarded exactly when there is an id. |
| JsPlayer.Player.SetVolume | src/player.ts:74-82 | Without an id or a numeric argument nothing changes. Otherwise `getVolume` returns the value and it is forwarded once. |
| JsPlayer.Player.SetLoop | src/player.ts:84-92 | Without an id or a boolean argument nothing changes. Otherwise `getLoop` returns the value and it is forwarded once. |
| JsPlayer.Player.Seek | src/player.ts:94-97 | `seek` is forwarded exactly when there is an id and an argument whose `time` is a number. |
| JsPlayer.Player.OnNativeEvent | src/player.ts:103-142 | The listeners called are exactly those of `Dispatch`'s delivery, if there is one. |
| JsPlayer.Player.DeliverNativeEvent | src/player.ts:32-35 | While the subscription is held, a native event is dispatched with the current id. After `disponse` has dropped it, no listener is called. |
| JsPlayer.Player.On | src/player.ts:144-147 | The callback is appended to its name's list, which is created if needed. |
| JsPlayer.Player.Off | src/player.ts:149-155 | The name's list loses its first registration of the callback. Other lists and a missing list are untouched. |
| JsPlayer.Player.Emit | src/player.ts:157-160 | The calls made are exactly `Deliveries` of that name's listeners. |
| LegacyJsPlayer.Player.constructor | src/player.tsx:11-21 | A new wrapper has an empty id, no listeners and no subscription. |
| LegacyJsPlayer.Player.Mount | src/player.tsx:23-34 | `createPlayer()` is requested without an id. On success the resolved id is taken, the wrapper subscribes and emits `created`; on failure the id is empty. |
| LegacyJsPlayer.Player.Disponse | src/player.tsx:36-42 | As written, the subscription is dropped and the native module gets no call. |
| LegacyJsPlayer.Player.SetSource | src/player.tsx:48-51 | The source is forwarded exactly when there is an id and a source. |
| LegacyJsPlayer.Player.Play | src/player.tsx:53-56 | `play` is forwarded exactly when there is an id. |
| LegacyJsPlayer.Player.Pause | src/player.tsx:58-61 | `pause` is forwarded exactly when there is an id. |
| LegacyJsPlayer.Player.SetVolume | src/player.tsx:63-66 | The volume is forwarded exactly when there is an id and a numeric argument. |
| LegacyJsPlayer.Player.Seek | src/player.tsx:68-71 | `seek` is forwarded exactly when there is an id and an argument whose `time` is a number. |
| LegacyJsPlayer.Player.OnNativeEvent | src/player.tsx:73-112 | The listeners called are exactly those of `Dispatch`'s delivery, if there is one. |
| LegacyJsPlayer.Player.DeliverNativeEvent | src/player.tsx:26-29 | While the subscription is held, a native event is dispatched with the current id. After `disponse` has dropped it, no listener is called. |
| LegacyJsPlayer.Player.On | src/player.tsx:114-117 | The callback is appended to its name's list. |
| LegacyJsPlayer.Player.Off | src/player.tsx:119-125 | The name's list loses its first registration of the callback. |
| LegacyJsPlayer.Player.Emit | src/player.tsx:127-130 | The calls made are exactly `Deliveries` of that name's listeners. |

## Left out

- Concurrency. Every `DispatchQueue.main.async` and `runOnUiThread` block
  runs as one atomic step, and the JavaScript `async` functions run to
  completion. Interleavings between those steps are not modelled.
- `configureAudio` and every `AVAudioSession` call are not modelled (they
  are configuration with no state the core reads back). The same goes for
  `handleExternalPlaybackActiveChange`, which sends nothing the core
  depends on.
- Floating point, `CMTime` and NaN are not modelled. Times, rates and
  volumes are exact reals.
- The `URL(string:)!` force-unwrap crash is not modelled. Every url string
  is taken to parse.
- There is no volume fade engine and no seek tolerance window in the
  session code: `seek` compares positions exactly, and so does the model.
- Android `onPositionDiscontinuity` (`ON_SEEK` with `positionMs / 100`) is
  not modelled, and nor are the empty listener overrides.
- AndroidModule.PlaybackModule.Seek and
  AndroidModule.PlaybackModule.FadeVolume call methods that Player.java
  does not define (`seek` with a callback, `fadeVolume`). They are recorded
  as calls on an opaque interface, and the `seeked` flag is a parameter.
- AndroidPlayer.TruncateToLong: the saturation of `(long)` for values
  beyond the 64-bit range is not modelled.
- AndroidPlayer.Player.SetSource: requires a url whenever the session has
  an engine. The source dereferences the url and would throw a
  `NullPointerException` without one.
- AndroidModule.PlaybackModule.SetSource carries the same url requirement.
- IosModule.Playback.Seek: the seek dictionary is read as optional reals.
  The `NSValue`/`NSNumber` bridging of its entries is not modelled.
- `generateId` (a clock and a random number) is a parameter of the
  constructor and `Mount`. The `onCreated` callback is not modelled.
- Listeners that call `on`/`off` while `emit` is iterating are not
  modelled, and nor are prototype keys such as `constructor` in the
  listener table.
- Notifications are delivered to one session at a time: `Notify` is given
  a session and matches the notification against that session's own
  entries. Item ids are counted per session, so they do not name an item
  across sessions. One session's item notifications reaching another
  session's entries (any-sender entries included) are not modelled.
- The registries' `players` maps are static and so shared across module
  instances. Here each registry object holds its own map.
- IosModule.Playback.CreatePlayer and
  AndroidModule.PlaybackModule.CreatePlayer overwrite an existing id
  without disposing the old session. The model states the overwrite. It
  does not track the orphaned session's engine.
- AvPlayer.Player.SeekCompleted assumes completions arrive in the order
  the seeks were issued. Its `seekTime` is an `NSValue` holding a `CMTime`,
  modelled as a boxed time that is not a number. What React Native's
  event serialiser makes of that object is not modelled.
- The constructor's `onCreated` callback on Android (`InitCallback`) is
  folded into `CreatePlayer`'s reply.

## Findings

| source | as written | input that shows it | evidently intended | confidence | as-written member | corrected member |
|---|---|---|---|---|---|---|
| src/player.ts:46 (also src/player.tsx:40) | `disponse` calls `Module.disponsePlayer`, which neither native registry exports. The `TypeError` is swallowed by the empty `catch`. | Any mounted player on which `disponse()` is called: the native session is never disposed, and it keeps its engine and its registry entry. | Call `Module.disposePlayer(this.playerId)`, the method both registries export. | high, not executed | JsPlayer.Player.Disponse | JsPlayer.Player.DisponseIntended |
| ios/PlayerObserver.swift:119-122 (with ios/Player.swift:253-278 and Player.swift:229-254) | The end-of-item notification is bound to `handlePlayerItemDidReachEnd`, which only reports a failure carried in the notification. `playerItemDidReachEnd`, the handler that sends `ON_END` and restarts a looping item, has no caller in either copy. | Any item that plays to its end normally, with or without `loop` set: the session sends no `ON_END`, and a looping item is not rewound or played again. | Route the end-of-item notification to `playerItemDidReachEnd` (sending `ON_END` and looping, as the Android session sends `ON_END` for `STATE_ENDED`), keeping the failure report for failed items. | high, not executed | AvPlayer.EndOfItemIsSilent | AvPlayer.Player.PlayerItemDidReachEnd |

=== FILE: android_module.dfy ===
/** The Android session registry: `PlaybackModule` in
    android/src/main/java/com/playback/PlaybackModule.java. It maps player
    ids to sessions, creates and disposes them, and forwards every command
    to the session registered under the id it names.

    Two of the calls the module makes, `seek` with a completion callback
    and `fadeVolume`, have no counterpart on the Android `Player`; the
    module treats those as calls on an opaque interface, recorded in a
    ghost log, and the `seeked` flag the callback would deliver is a
    parameter. */
module AndroidModule {
  import opened Wrappers
  import opened Values
  import opened Sources
  import opened Bridge
  import AndroidPlayer

  /** A call on the part of the session interface `Player.java` does not
      implement. */
  datatype OpaqueCall =
    | SeekWithCallback(playerId: string, time: real)
    | FadeVolume(playerId: string, target: real, duration: real)

  class PlaybackModule {
    /** The static `players` map. */
    var players: map<string, AndroidPlayer.Player>
    ghost var opaqueCalls: seq<OpaqueCall>

    /** Every registered session is in a valid state and carries the id it
        is registered under, and no session is registered twice (each
        `createPlayer` builds a new one). */
    ghost predicate Valid()
      reads this, players.Values
    {
      && (forall id :: id in players ==> players[id].Valid() && players[id].playerId == id)
      && (forall id, id' :: id in players && id' in players && id != id' ==> players[id] != players[id'])
    }

    /** The sessions a command on `playerId` may change: the one registered
        under it, if any. */
    ghost function Target(playerId: string): set<object>
      reads this
    {
      if playerId in players then {players[playerId]} else {}
    }

    constructor ()
      ensures Valid() && players == map[] && opaqueCalls == []
    {
      players := map[];
      opaqueCalls := [];
    }

    /** `createPlayer`: a new session on the engine `engine`, stored under
        `playerId` whether or not the id was taken (a session it replaces is
        not disposed); resolves with the id once the session is built. */
    method CreatePlayer(playerId: string, engine: AndroidPlayer.EngineId) returns (reply: Reply)
      requires Valid()
      modifies this
      ensures Valid()
      ensures playerId in players && fresh(players[playerId])
      ensures players == old(players)[playerId := players[playerId]]
      ensures players[playerId].player == Some(engine) && players[playerId].sent == []
      ensures players[playerId].State() == AndroidPlayer.InitialState(engine)
      ensures reply == Resolved(Str(playerId))
      ensures opaqueCalls == old(opaqueCalls)
    {
      var p := new AndroidPlayer.Player(playerId, engine);
      players := players[playerId := p];
      reply := Resolved(Str(playerId));
    }

    /** `disposePlayer`: rejects an unknown id and changes nothing;
        otherwise disposes that session, drops the id and resolves null. */
    method DisposePlayer(playerId: string) returns (reply: Reply)
      requires Valid()
      modifies this, Target(playerId)
      ensures Valid() && opaqueCalls == old(opaqueCalls)
      ensures playerId !in old(players) ==> reply == PlayerNotFound && players == old(players)
      ensures playerId in old(players) ==>
        && reply == Resolved(Null)
        && players == old(players) - {playerId}
        && old(players)[playerId].State() == AndroidPlayer.DisposedState(old(players[playerId].State()))
      ensures playerId !in players
    {
      if playerId !in players {
        return PlayerNotFound;
      }
      var p := players[playerId];
      p.Dispose();
      players := players - {playerId};
      reply := Resolved(Null);
    }

    /** `setSource`: rejects an unknown id, otherwise forwards the source
        once. The session reads the url whenever it has an engine. */
    method SetSource(playerId: string, src: SourceDict) returns (reply: Reply)
      requires Valid()
      requires playerId in players && players[playerId].player.Some? ==> src.url.Some?
      modifies Target(playerId)
      ensures Valid() && players == old(players) && opaqueCalls == old(opaqueCalls)
      ensures playerId !in players ==> reply == PlayerNotFound
      ensures playerId in players ==>
        && reply == Resolved(Null)
        && players[playerId].engineLog == old(players[playerId].engineLog)
             + (if old(players[playerId].player).Some? then AndroidPlayer.SourceCommands(src.url.value, src) else [])
      ensures playerId in players ==>
        var s := old(players[playerId].State());
        players[playerId].State() ==
          if s.player.None? then s
          else s.(engineLog := s.engineLog + AndroidPlayer.SourceCommands(src.url.value, src),
                  paused := src.autoplay != Some(true),
                  volume := if src.volume.Some? then src.volume.value else s.volume)
    {
      if playerId !in players {
        return PlayerNotFound;
      }
      players[playerId].SetSource(src);
      reply := Resolved(Null);
    }

    /** `play`: rejects an unknown id, otherwise forwards once. */
    method Play(playerId: string) returns (reply: Reply)
      requires Valid()
      modifies Target(playerId)
      ensures Valid() && players == old(players) && opaqueCalls == old(opaqueCalls)
      ensures playerId !in players ==> reply == PlayerNotFound
      ensures playerId in players ==>
        && reply == Resolved(Null) && !players[playerId].paused
        && players[playerId].engineLog == old(players[playerId].engineLog)
             + (if players[playerId].player.Some? then [AndroidPlayer.Play] else [])
      ensures playerId in players ==>
        var s := old(players[playerId].State());
        players[playerId].State() ==
          s.(paused := false, engineLog := s.engineLog + (if s.player.Some? then [AndroidPlayer.Play] else []))
    {
      if playerId !in players {
        return PlayerNotFound;
      }
      players[playerId].Play();
      reply := Resolved(Null);
    }

    /** `pause`: rejects an unknown id, otherwise forwards once. */
    method Pause(playerId: string) returns (reply: Reply)
      requires Valid()
      modifies Target(playerId)
      ensures Valid() && players == old(players) && opaqueCalls == old(opaqueCalls)
      ensures playerId !in players ==> reply == PlayerNotFound
      ensures playerId in players ==>
        && reply == Resolved(Null) && players[playerId].paused
        && players[playerId].engineLog == old(players[playerId].engineLog)
             + (if players[playerId].player.Some? then [AndroidPlayer.Pause] else [])
      ensures playerId in players ==>
        var s := old(players[playerId].State());
        players[playerId].State() ==
          s.(paused := true, engineLog := s.engineLog + (if s.player.Some? then [AndroidPlayer.Pause] else []))
    {
      if playerId !in players {
        return PlayerNotFound;
      }
      players[playerId].Pause();
      reply := Resolved(Null);
    }

    /** `setLoop`: rejects an unknown id, otherwise forwards once. */
    method SetLoop(playerId: string, loop: bool) returns (reply: Reply)
      requires Valid()
      modifies Target(playerId)
      ensures Valid() && players == old(players) && opaqueCalls == old(opaqueCalls)
      ensures playerId !in players ==> reply == PlayerNotFound
      ensures playerId in players ==> reply == Resolved(Null) && players[playerId].loop == loop
      ensures playerId in players ==> players[playerId].State() == old(players[playerId].State()).(loop := loop)
    {
      if playerId !in players {
        return PlayerNotFound;
      }
      players[playerId].SetLoop(loop);
      reply := Resolved(Null);
    }

    /** `setVolume`: rejects an unknown id, otherwise forwards once. */
    method SetVolume(playerId: string, volume: real) returns (reply: Reply)
      requires Valid()
      modifies Target(playerId)
      ensures Valid() && players == old(players) && opaqueCalls == old(opaqueCalls)
      ensures playerId !in players ==> reply == PlayerNotFound
      ensures playerId in players ==>
        && reply == Resolved(Null) && players[playerId].volume == volume
        && players[playerId].engineLog == old(players[playerId].engineLog)
             + (if players[playerId].player.Some? then [AndroidPlayer.SetVolume(volume)] else [])
      ensures playerId in players ==>
        var s := old(players[playerId].State());
        players[playerId].State() ==
          s.(volume := volume, engineLog := s.engineLog + (if s.player.Some? then [AndroidPlayer.SetVolume(volume)] else []))
    {
      if playerId !in players {
        return PlayerNotFound;
      }
      players[playerId].SetVolume(volume);
      reply := Resolved(Null);
    }

    /** `seek`: rejects an unknown id; otherwise issues the callback seek
        once and resolves with `{seeked: b}`, `b` being what the callback
        delivers. */
    method Seek(playerId: string, time: real, seeked: bool) returns (reply: Reply)
      requires Valid()
      modifies this
      ensures Valid() && players == old(players)
      ensures playerId !in players ==> reply == PlayerNotFound && opaqueCalls == old(opaqueCalls)
      ensures playerId in players ==>
        && reply == ResolvedMap(map["seeked" := Bool(seeked)])
        && opaqueCalls == old(opaqueCalls) + [SeekWithCallback(playerId, time)]
    {
      if playerId !in players {
        return PlayerNotFound;
      }
      opaqueCalls := opaqueCalls + [SeekWithCallback(playerId, time)];
      reply := ResolvedMap(map["seeked" := Bool(seeked)]);
    }

    /** `fadeVolume`: rejects an unknown id, otherwise issues the fade once
        and resolves null. */
    method FadeVolume(playerId: string, target: real, duration: real) returns (reply: Reply)
      requires Valid()
      modifies this
      ensures Valid() && players == old(players)
      ensures playerId !in players ==> reply == PlayerNotFound && opaqueCalls == old(opaqueCalls)
      ensures playerId in players ==>
        && reply == Resolved(Null)
        && opaqueCalls == old(opaqueCalls) + [OpaqueCall.FadeVolume(playerId, target, duration)]
    {
      if playerId !in players {
        return PlayerNotFound;
      }
      opaqueCalls := opaqueCalls + [OpaqueCall.FadeVolume(playerId, target, duration)];
      reply := Resolved(Null);
    }

    /** `onHostDestroy`: disposes every registered session, each exactly
        once, and keeps every id registered. */
    method OnHostDestroy()
      requires Valid()
      modifies players.Values
      ensures Valid()
      ensures forall id :: id in players ==> players[id].State() == AndroidPlayer.DisposedState(old(players[id].State()))
      ensures forall id :: id in players ==>
        && players[id].player.None? && players[id].pendingTicks == 0
        && !players[id].paused && !players[id].loop && players[id].volume == 1.0
        && players[id].engineLog == old(players[id].engineLog)
             + (if old(players[id].player).Some? then [AndroidPlayer.Release, AndroidPlayer.RemoveListener] else [])
    {
      var remaining := players.Keys;
      while remaining != {}
        invariant remaining <= players.Keys
        invariant Valid()
        invariant forall id :: id in remaining ==> unchanged(players[id])
        invariant forall id :: id in players && id !in remaining ==>
          players[id].State() == AndroidPlayer.DisposedState(old(players[id].State()))
        decreases remaining
      {
        var id :| id in remaining;
        players[id].Dispose();
        remaining := remaining - {id};
      }
    }
  }
}

=== FILE: android_player.dfy ===
/** The Android playback session: `Player` in
    android/src/main/java/com/playback/Player.java, over ExoPlayer.

    The engine is an identity plus a ghost log of the calls made to it;
    what the engine reports (playback state, positions, durations, errors)
    arrives as method parameters. Each `runOnUiThread` body runs as one
    step. The progress runnable is represented by how many posts of it wait
    on the handler. Events are appended to `sent`. */
module AndroidPlayer {
  import opened Wrappers
  import opened Values
  import opened Events
  import opened Sources

  /** Identity of an `ExoPlayer` instance. */
  type EngineId = nat

  /** ExoPlayer's `Player.STATE_*` constants. */
  const StateIdle: int := 1
  const StateBuffering: int := 2
  const StateReady: int := 3
  const StateEnded: int := 4

  /** The delay, in milliseconds, between two progress ticks. */
  const ProgressDelayMs: nat := 500

  /** The calls a session makes on its `ExoPlayer`. */
  datatype ExoCall =
    | AddListener
    | SetMediaItem(uri: string)
    | Prepare
    | SetPlayWhenReady(playWhenReady: bool)
    | SetVolume(volume: real)
    | Play
    | Pause
    | SeekTo(positionMs: int)
    | Release
    | RemoveListener

  /** A `PlaybackException` as the listener reads it: its `errorCode` and
      `getMessage()`, which may be null. */
  datatype PlaybackError = PlaybackError(errorCode: int, message: Option<string>)

  /** `(long) x` for a double in range: truncation toward zero. */
  function TruncateToLong(x: real): (r: int)
    ensures x >= 0.0 ==> r >= 0 && r as real <= x < r as real + 1.0
    ensures x < 0.0 ==> r <= 0 && r as real - 1.0 < x <= r as real
  {
    if x >= 0.0 then x.Floor else -((-x).Floor)
  }

  /** `onPlaybackStateChanged`, with the engine's duration and position (ms)
      for the ready case: idle is `ON_STALLED`, buffering `ON_BUFFERING`,
      ready `ON_LOAD` with every capability flag set, ended `ON_END`; any
      other state sends nothing. */
  function PlaybackStateEvent(state: int, durationMs: real, positionMs: real): (e: Option<Emitted>)
    ensures e.None? <==> state !in {StateIdle, StateBuffering, StateReady, StateEnded}
    ensures e == Some(Emitted(OnStalled, None)) <==> state == StateIdle
    ensures e == Some(Emitted(OnBuffering, None)) <==> state == StateBuffering
    ensures e == Some(Emitted(OnEnd, None)) <==> state == StateEnded
    ensures e.Some? && e.value.code == OnLoad <==> state == StateReady
    ensures state == StateReady ==> e.value.data == Some(LoadData(LoadInfo(durationMs, positionMs, true, true, true, true, true, true)))
  {
    if state == StateBuffering then Some(Emitted(OnBuffering, None))
    else if state == StateReady then Some(Emitted(OnLoad, Some(LoadData(LoadInfo(durationMs, positionMs, true, true, true, true, true, true)))))
    else if state == StateEnded then Some(Emitted(OnEnd, None))
    else if state == StateIdle then Some(Emitted(OnStalled, None))
    else None
  }

  /** `onIsPlayingChanged`: `ON_PLAY` when playing starts, `ON_PAUSE` when it stops. */
  function IsPlayingEvent(isPlaying: bool): (e: Emitted)
    ensures e.data.None?
    ensures e.code == OnPlay <==> isPlaying
    ensures e.code == OnPause <==> !isPlaying
  {
    Emitted(if isPlaying then OnPlay else OnPause, None)
  }

  /** `onPlayerError` and `onPlayerErrorChanged`: always `ON_ERROR`; the
      code and message are attached only for a non-null error, and a null
      message is bridged as null. */
  function ErrorEvent(error: Option<PlaybackError>): (e: Emitted)
    ensures e.code == OnError
    ensures e.data.Some? <==> error.Some?
    ensures error.Some? ==> e.data.value.Keys == {"errorCode", "errorMessage"}
    ensures error.Some? ==> e.data.value["errorCode"] == Num(error.value.errorCode as real)
    ensures error.Some? && error.value.message.Some? ==> e.data.value["errorMessage"] == Str(error.value.message.value)
    ensures error.Some? && error.value.message.None? ==> e.data.value["errorMessage"] == Null
  {
    if error.None? then Emitted(OnError, None)
    else
      var message := if error.value.message.Some? then Str(error.value.message.value) else Null;
      Emitted(OnError, Some(map["errorCode" := Num(error.value.errorCode as real), "errorMessage" := message]))
  }

  /** The `ON_PROGRESS` payload, in milliseconds as the engine reports them. */
  function ProgressData(positionMs: real, durationMs: real): Body {
    map["currentTime" := Num(positionMs), "duration" := Num(durationMs)]
  }

  /** The engine calls `setSource` makes: set and prepare the item, set
      play-when-ready from `autoplay`, then apply a present volume. */
  function SourceCommands(url: string, src: SourceDict): seq<ExoCall> {
    [SetMediaItem(url), Prepare, SetPlayWhenReady(src.autoplay == Some(true))]
    + (if src.volume.Some? then [SetVolume(src.volume.value)] else [])
  }

  /** Loading always sets and prepares the item first, plays when ready
      exactly when `autoplay` is true, sets a volume exactly when the source
      has one (as the last call), and neither plays, pauses nor seeks. */
  lemma SourceCommandsSpec(url: string, src: SourceDict)
    ensures var r := SourceCommands(url, src);
      && |r| >= 3 && r[0] == SetMediaItem(url) && r[1] == Prepare
      && (SetPlayWhenReady(true) in r <==> src.autoplay == Some(true))
      && (SetPlayWhenReady(false) in r <==> src.autoplay != Some(true))
      && ((exists c :: c in r && c.SetVolume?) <==> src.volume.Some?)
      && (src.volume.Some? ==> r[|r| - 1] == SetVolume(src.volume.value))
      && (forall c :: c in r ==> c != Play && c != Pause && !c.SeekTo?)
  {
    var r := SourceCommands(url, src);
    var prefix := [SetMediaItem(url), Prepare, SetPlayWhenReady(src.autoplay == Some(true))];
    assert forall c :: c in prefix ==> !c.SetVolume?;
    if src.volume.Some? {
      assert r == prefix + [SetVolume(src.volume.value)];
      assert r[|r| - 1] in r;
    } else {
      assert r == prefix;
    }
  }

  /** Everything about a session a call can change, as one value. */
  datatype SessionState = SessionState(
    player: Option<EngineId>, paused: bool, volume: real, loop: bool,
    isPlaying: bool, pendingTicks: nat, engineLog: seq<ExoCall>, sent: seq<Body>)

  /** The state the constructor leaves a new session on `engine` in: the
      listener is attached, nothing is paused, looping, playing, pending or
      sent, and the volume is Java's default for a `double`, 0. */
  function InitialState(engine: EngineId): SessionState {
    SessionState(Some(engine), false, 0.0, false, false, 0, [AddListener], [])
  }

  /** The state `dispose` leaves a session in: the engine, if any, released
      and its listener detached, no progress runnable pending, and `paused`,
      `loop` and `volume` reset. */
  function DisposedState(s: SessionState): SessionState {
    s.(player := None, pendingTicks := 0, paused := false, loop := false, volume := 1.0,
       engineLog := s.engineLog + (if s.player.Some? then [Release, RemoveListener] else []))
  }

  class Player {
    const playerId: string
    /** The engine; `None` once disposed. */
    var player: Option<EngineId>
    var paused: bool
    var volume: real
    var loop: bool
    /** The engine's playing state as last reported to the listener. */
    var isPlaying: bool
    /** Posts of the progress runnable waiting on the handler. */
    var pendingTicks: nat
    ghost var engineLog: seq<ExoCall>
    /** Bodies of the `playerEvent`s emitted, in order. */
    var sent: seq<Body>

    /** The progress runnable is only ever pending while the engine exists
        and plays. */
    ghost predicate Valid()
      reads this
    {
      (player.None? || !isPlaying) ==> pendingTicks == 0
    }

    /** The session's current state. */
    ghost function State(): SessionState
      reads this
    {
      SessionState(player, paused, volume, loop, isPlaying, pendingTicks, engineLog, sent)
    }

    /** The body the listener emits for `e`. */
    function Body(e: Emitted): Body {
      EventBody(Some(playerId), e.code, e.data)
    }

    /** The constructor's UI-thread block: a fresh engine with the listener
        attached. Java's field defaults leave `volume` at 0. */
    constructor (playerId: string, engine: EngineId)
      ensures Valid()
      ensures this.playerId == playerId && player == Some(engine)
      ensures !paused && volume == 0.0 && !loop && !isPlaying && pendingTicks == 0
      ensures engineLog == [AddListener] && sent == []
      ensures State() == InitialState(engine)
    {
      this.playerId := playerId;
      player := Some(engine);
      paused, volume, loop := false, 0.0, false;
      isPlaying := false;
      pendingTicks := 0;
      engineLog := [AddListener];
      sent := [];
    }

    /** `dispose`: releases the engine and detaches the listener if there
        is an engine, cancels the progress runnable, and resets `paused`,
        `loop` and `volume` (to 1), whether or not it ran before. */
    method Dispose()
      requires Valid()
      modifies this
      ensures Valid() && State() == DisposedState(old(State()))
      ensures player.None? && pendingTicks == 0 && !paused && !loop && volume == 1.0
      ensures engineLog == old(engineLog) + (if old(player).Some? then [Release, RemoveListener] else [])
      ensures isPlaying == old(isPlaying) && sent == old(sent)
    {
      if player.Some? {
        engineLog := engineLog + [Release, RemoveListener];
        player := None;
      }
      pendingTicks := 0;
      paused := false;
      loop := false;
      volume := 1.0;
    }

    /** `setSource`: nothing without an engine; otherwise loads the url,
        sets `paused` from `autoplay` and stores a present volume. The url
        is read only when there is an engine, and must then be present. */
    method SetSource(src: SourceDict)
      requires Valid()
      requires player.Some? ==> src.url.Some?
      modifies this
      ensures Valid()
      ensures old(player).None? ==> unchanged(this)
      ensures old(player).Some? ==>
        && engineLog == old(engineLog) + SourceCommands(src.url.value, src)
        && paused == (src.autoplay != Some(true))
        && volume == (if src.volume.Some? then src.volume.value else old(volume))
      ensures player == old(player) && loop == old(loop) && isPlaying == old(isPlaying)
      ensures pendingTicks == old(pendingTicks) && sent == old(sent)
    {
      if player.None? {
        return;
      }
      engineLog := engineLog + SourceCommands(src.url.value, src);
      paused := src.autoplay != Some(true);
      if src.volume.Some? {
        volume := src.volume.value;
      }
    }

    /** `play`: clears `paused` at once; the engine plays if it still exists. */
    method Play()
      requires Valid()
      modifies this
      ensures Valid() && !paused
      ensures engineLog == old(engineLog) + (if player.Some? then [ExoCall.Play] else [])
      ensures player == old(player) && volume == old(volume) && loop == old(loop)
      ensures isPlaying == old(isPlaying) && pendingTicks == old(pendingTicks) && sent == old(sent)
    {
      paused := false;
      if player.Some? {
        engineLog := engineLog + [ExoCall.Play];
      }
    }

    /** `pause`: sets `paused` at once; the engine pauses if it still exists. */
    method Pause()
      requires Valid()
      modifies this
      ensures Valid() && paused
      ensures engineLog == old(engineLog) + (if player.Some? then [ExoCall.Pause] else [])
      ensures player == old(player) && volume == old(volume) && loop == old(loop)
      ensures isPlaying == old(isPlaying) && pendingTicks == old(pendingTicks) && sent == old(sent)
    {
      paused := true;
      if player.Some? {
        engineLog := engineLog + [ExoCall.Pause];
      }
    }

    /** `setVolume`: stores the volume at once; the engine gets it if it
        still exists. */
    method SetVolume(v: real)
      requires Valid()
      modifies this
      ensures Valid() && volume == v
      ensures engineLog == old(engineLog) + (if player.Some? then [ExoCall.SetVolume(v)] else [])
      ensures player == old(player) && paused == old(paused) && loop == old(loop)
      ensures isPlaying == old(isPlaying) && pendingTicks == old(pendingTicks) && sent == old(sent)
    {
      volume := v;
      if player.Some? {
        engineLog := engineLog + [ExoCall.SetVolume(v)];
      }
    }

    /** `setLoop`: only stores the flag (nothing on Android reads it). */
    method SetLoop(l: bool)
      requires Valid()
      modifies this
      ensures Valid() && loop == l
      ensures player == old(player) && paused == old(paused) && volume == old(volume) && engineLog == old(engineLog)
      ensures isPlaying == old(isPlaying) && pendingTicks == old(pendingTicks) && sent == old(sent)
    {
      loop := l;
    }

    /** `seek`, given the `time` entry in seconds: the engine, if it still
        exists, seeks to that time in whole milliseconds, truncated. */
    method Seek(time: real)
      requires Valid()
      modifies this
      ensures Valid()
      ensures engineLog == old(engineLog) + (if player.Some? then [SeekTo(TruncateToLong(time * 1000.0))] else [])
      ensures player == old(player) && paused == old(paused) && volume == old(volume) && loop == old(loop)
      ensures isPlaying == old(isPlaying) && pendingTicks == old(pendingTicks) && sent == old(sent)
    {
      if player.Some? {
        engineLog := engineLog + [SeekTo(TruncateToLong(time * 1000.0))];
      }
    }

    /** The listener's `onPlaybackStateChanged`. */
    method OnPlaybackStateChanged(state: int, durationMs: real, positionMs: real)
      requires Valid()
      modifies this
      ensures Valid()
      ensures var e := PlaybackStateEvent(state, durationMs, positionMs);
        sent == old(sent) + (if e.Some? then [Body(e.value)] else [])
      ensures player == old(player) && paused == old(paused) && volume == old(volume) && loop == old(loop)
      ensures isPlaying == old(isPlaying) && pendingTicks == old(pendingTicks) && engineLog == old(engineLog)
    {
      var e := PlaybackStateEvent(state, durationMs, positionMs);
      if e.Some? {
        sent := sent + [Body(e.value)];
      }
    }

    /** The listener's `onIsPlayingChanged`, which only the attached engine
        calls: `ON_PLAY` and one more post of the progress runnable when
        playing starts, `ON_PAUSE` and every pending post cancelled when it
        stops. */
    method OnIsPlayingChanged(nowPlaying: bool)
      requires Valid() && player.Some?
      modifies this
      ensures Valid()
      ensures sent == old(sent) + [Body(IsPlayingEvent(nowPlaying))]
      ensures isPlaying == nowPlaying
      ensures pendingTicks == if nowPlaying then old(pendingTicks) + 1 else 0
      ensures player == old(player) && paused == old(paused) && volume == old(volume) && loop == old(loop)
      ensures engineLog == old(engineLog)
    {
      sent := sent + [Body(IsPlayingEvent(nowPlaying))];
      isPlaying := nowPlaying;
      if nowPlaying {
        pendingTicks := pendingTicks + 1;
      } else {
        pendingTicks := 0;
      }
    }

    /** A pending post of the progress runnable runs, with the engine's
        position and duration (ms): while the engine plays it emits
        `ON_PROGRESS` and posts itself again, so the ticker only stops when
        playing stops or the session is disposed. */
    method RunProgressTick(positionMs: real, durationMs: real)
      requires Valid() && pendingTicks > 0
      modifies this
      ensures Valid()
      ensures sent == old(sent) + [Body(Emitted(OnProgress, Some(ProgressData(positionMs, durationMs))))]
      ensures pendingTicks == old(pendingTicks)
      ensures player == old(player) && paused == old(paused) && volume == old(volume) && loop == old(loop)
      ensures isPlaying == old(isPlaying) && engineLog == old(engineLog)
    {
      pendingTicks := pendingTicks - 1;
      if player.Some? && isPlaying {
        sent := sent + [Body(Emitted(OnProgress, Some(ProgressData(positionMs, durationMs))))];
        pendingTicks := pendingTicks + 1;
      }
    }

    /** The listener's `onPlayerError` and `onPlayerErrorChanged`, which
        share one body. */
    method OnPlayerError(error: Option<PlaybackError>)
      requires Valid()
      modifies this
      ensures Valid()
      ensures sent == old(sent) + [Body(ErrorEvent(error))]
      ensures player == old(player) && paused == old(paused) && volume == old(volume) && loop == old(loop)
      ensures isPlaying == old(isPlaying) && pendingTicks == old(pendingTicks) && engineLog == old(engineLog)
    {
      sent := sent + [Body(ErrorEvent(error))];
    }
  }
}

=== FILE: av_engine.dfy ===
/** The AVFoundation side of an iOS session, abstracted: engine and item
    handles are opaque identities, the calls a session makes on them are
    values of `EngineCall`, and the decisions `setSource`, `seek` and the
    end-of-item handler take before touching the engine are pure functions. */
module AvEngine {
  import opened Wrappers
  import opened Sources

  /** Identity of an `AVPlayer` instance. */
  type EngineId = nat
  /** Identity of an `AVPlayerItem` instance. */
  type ItemId = nat

  /** `NSError` as far as events use it. */
  datatype NsError = NsError(code: int, description: string)

  /** `AVPlayerItem.Status`; a failed item always carries its error. */
  datatype ItemStatus = Unknown | ReadyToPlay | Failed(error: NsError)

  /** The asset behind an item: remote (with request headers) or a local file. */
  datatype Asset = RemoteAsset(url: string, headers: map<string, string>) | FileAsset(path: string)

  datatype PlayerItem = PlayerItem(id: ItemId, asset: Asset)

  /** The calls a session makes on its `AVPlayer` or on one of its items. */
  datatype EngineCall =
    | AllowExternalPlayback
    | SetActionAtItemEndNone
    | ReplaceCurrentItem(item: Option<PlayerItem>)
    | Play
    | Pause
    | SetVolume(volume: real)
    | SeekTo(target: real, tolerance: real)
    | ItemSeekToZero(ended: ItemId)

  /** The `NSDictionary` handed to `seek`, in seconds. */
  datatype SeekDict = SeekDict(time: Option<real>, tolerance: Option<real>)

  /** What the engine reports about its current item when `seek` runs. */
  datatype ItemSnapshot = ItemSnapshot(status: ItemStatus, currentTime: real)

  /** The seek `seek` decides to issue. */
  datatype SeekPlan = SeekPlan(target: real, tolerance: real)

  predicate HasPrefix(s: string, prefix: string) {
    |prefix| <= |s| && s[..|prefix|] == prefix
  }

  /** `hasPrefix("http://") || hasPrefix("https://")`. */
  predicate IsRemoteUrl(url: string) {
    HasPrefix(url, "http://") || HasPrefix(url, "https://")
  }

  /** `into.merge(incoming) { (_, new) in new }`: every key of either map,
      the incoming value winning on a clash. */
  function MergeHeaders(into: map<string, string>, incoming: map<string, string>): (r: map<string, string>)
    ensures r.Keys == into.Keys + incoming.Keys
    ensures forall k :: k in incoming ==> r[k] == incoming[k]
    ensures forall k :: k in into && k !in incoming ==> r[k] == into[k]
  {
    into + incoming
  }

  /** The header map `setSource` builds: an empty map merged with the
      source's headers, if any. */
  function RequestHeaders(src: SourceDict): (h: map<string, string>)
    ensures src.headers.Some? ==> h == src.headers.value
    ensures src.headers.None? ==> h == map[]
  {
    MergeHeaders(map[], src.headers.GetOr(map[]))
  }

  /** The asset `setSource` builds: none without a url; a remote asset
      carrying the merged headers for an `http://` or `https://` url; a file
      asset, with no headers, for anything else. */
  function AssetFor(src: SourceDict): (a: Option<Asset>)
    ensures a.None? <==> src.url.None?
    ensures a.Some? ==> (a.value.RemoteAsset? <==> IsRemoteUrl(src.url.value))
    ensures a.Some? && a.value.RemoteAsset? ==> a.value.url == src.url.value && a.value.headers == RequestHeaders(src)
    ensures a.Some? && a.value.FileAsset? ==> a.value.path == src.url.value
  {
    match src.url
    case None => None
    case Some(url) =>
      if IsRemoteUrl(url) then Some(RemoteAsset(url, RequestHeaders(src))) else Some(FileAsset(url))
  }

  /** The engine calls `setSource` makes after building `item`, when the
      session holds an engine: install the item, (current variant only)
      re-assert `actionAtItemEnd = .none`, play or pause by `autoplay`, and
      apply a present volume. */
  function LoadCommands(item: PlayerItem, src: SourceDict, reassertEndAction: bool): seq<EngineCall> {
    [ReplaceCurrentItem(Some(item))]
    + (if reassertEndAction then [SetActionAtItemEndNone] else [])
    + [if src.autoplay == Some(true) then Play else Pause]
    + (if src.volume.Some? then [SetVolume(src.volume.value)] else [])
  }

  /** Loading installs the item first; it plays exactly when `autoplay` is
      true and pauses otherwise; it re-asserts the end action exactly when
      asked to; it sets a volume exactly when the source has one, and then
      as the last call; and it never seeks. */
  lemma LoadCommandsSpec(item: PlayerItem, src: SourceDict, reassertEndAction: bool)
    ensures var r := LoadCommands(item, src, reassertEndAction);
      && |r| >= 2 && r[0] == ReplaceCurrentItem(Some(item))
      && (Play in r <==> src.autoplay == Some(true))
      && (Pause in r <==> src.autoplay != Some(true))
      && (SetActionAtItemEndNone in r <==> reassertEndAction)
      && ((exists c :: c in r && c.SetVolume?) <==> src.volume.Some?)
      && (src.volume.Some? ==> r[|r| - 1] == SetVolume(src.volume.value))
      && (forall c :: c in r ==> !c.SeekTo? && !c.ItemSeekToZero?)
  {
    var r := LoadCommands(item, src, reassertEndAction);
    var prefix := [ReplaceCurrentItem(Some(item))]
      + (if reassertEndAction then [SetActionAtItemEndNone] else [])
      + [if src.autoplay == Some(true) then Play else Pause];
    assert forall c :: c in prefix ==> !c.SetVolume?;
    if src.volume.Some? {
      assert r == prefix + [SetVolume(src.volume.value)];
      assert r[|r| - 1] in r;
    } else {
      assert r == prefix;
    }
  }

  /** `seek` issues an engine seek only with an engine, a `time`, a
      `tolerance`, a current item that is `readyToPlay`, and a current
      position different from the target (exact comparison, no window). */
  function SeekPlanFor(hasEngine: bool, req: SeekDict, item: Option<ItemSnapshot>): (p: Option<SeekPlan>)
    ensures p.Some? <==>
      hasEngine && req.time.Some? && req.tolerance.Some? && item.Some?
      && item.value.status == ReadyToPlay && item.value.currentTime != req.time.value
    ensures p.Some? ==> p.value.target == req.time.value && p.value.tolerance == req.tolerance.value
  {
    if !hasEngine || req.time.None? || req.tolerance.None? then None
    else if item.None? || item.value.status != ReadyToPlay then None
    else if item.value.currentTime == req.time.value then None
    else Some(SeekPlan(req.time.value, req.tolerance.value))
  }

  /** The engine calls `playerItemDidReachEnd` makes: none unless looping;
      when looping, rewind the ended item (if the notification carries one)
      to zero and, with an engine, play again. */
  function LoopCommands(loop: bool, endedItem: Option<ItemId>, hasEngine: bool): (r: seq<EngineCall>)
    ensures |r| == (if loop && endedItem.Some? then 1 + (if hasEngine then 1 else 0) else 0)
    ensures !loop || endedItem.None? ==> r == []
    ensures loop && endedItem.Some? ==> |r| >= 1 && r[0] == ItemSeekToZero(endedItem.value)
    ensures Play in r <==> loop && endedItem.Some? && hasEngine
    ensures forall c :: c in r ==> c == Play || c.ItemSeekToZero?
  {
    if loop && endedItem.Some? then
      [ItemSeekToZero(endedItem.value)] + (if hasEngine then [Play] else [])
    else []
  }
}

=== FILE: av_events.dfy ===
/** Event normalisation on iOS: how `sendPlayerEvent` builds an event body and
    how each native condition (rate, item status, loaded ranges, failure to
    reach the end, audio route change) maps to an event code and payload. */
module AvEvents {
  import opened Wrappers
  import opened Values
  import opened Events
  import opened AvEngine

  /** `AVAudioSession.RouteChangeReason.oldDeviceUnavailable.rawValue`. */
  const ReasonOldDeviceUnavailable: nat := 2
  /** `AVAudioSession.RouteChangeReason.override.rawValue`. */
  const ReasonOverride: nat := 4

  /** One entry of `loadedTimeRanges`, in seconds. */
  datatype TimeRange = TimeRange(start: real, duration: real)

  function ErrorData(e: NsError): Body {
    map["errorCode" := Num(e.code as real), "errorMessage" := Str(e.description)]
  }

  /** `handlePlaybackRateChange`: rate 1 is `ON_PLAY`, rate 0 is `ON_PAUSE`,
      any other rate sends nothing; neither carries data. */
  function RateEvent(rate: real): (e: Option<Emitted>)
    ensures e == Some(Emitted(OnPlay, None)) <==> rate == 1.0
    ensures e == Some(Emitted(OnPause, None)) <==> rate == 0.0
    ensures e.None? <==> rate != 1.0 && rate != 0.0
  {
    if rate == 1.0 then Some(Emitted(OnPlay, None))
    else if rate == 0.0 then Some(Emitted(OnPause, None))
    else None
  }

  /** `handlePlayerItemStatusChange`: a ready item gives `ON_LOAD` with its
      duration, position and capability flags, a failed item gives `ON_ERROR`
      with its error's code and description, an unknown status nothing. */
  function StatusEvent(status: ItemStatus, info: LoadInfo): (e: Option<Emitted>)
    ensures e.None? <==> status == Unknown
    ensures e.Some? && e.value.code == OnLoad <==> status == ReadyToPlay
    ensures e.Some? && e.value.code == OnError <==> status.Failed?
    ensures status == ReadyToPlay ==> e.value.data == Some(LoadData(info))
    ensures status.Failed? ==> e.value.data == Some(ErrorData(status.error))
  {
    match status
    case Unknown => None
    case ReadyToPlay => Some(Emitted(OnLoad, Some(LoadData(info))))
    case Failed(err) => Some(Emitted(OnError, Some(ErrorData(err))))
  }

  /** `handleLoadedTimeRanges`: nothing without a range; otherwise
      `ON_BUFFERING` whose `progress` is where the first range ends. */
  function LoadedTimeRangesEvent(ranges: seq<TimeRange>): (e: Option<Emitted>)
    ensures e.None? <==> ranges == []
    ensures e.Some? ==>
              && e.value.code == OnBuffering && e.value.data.Some?
              && e.value.data.value.Keys == {"progress"}
              && e.value.data.value["progress"] == Num(ranges[0].start + ranges[0].duration)
  {
    if ranges == [] then None
    else Some(Emitted(OnBuffering, Some(map["progress" := Num(ranges[0].start + ranges[0].duration)])))
  }

  /** `handlePlayerItemDidReachEnd` (the handler the observer registers for
      "did play to end"): it only forwards an error found in the
      notification, as `ON_ERROR`; it never sends `ON_END`. */
  function FailedToPlayToEndEvent(error: Option<NsError>): (e: Option<Emitted>)
    ensures e.Some? <==> error.Some?
    ensures e.Some? ==> e.value.code == OnError && e.value.data == Some(ErrorData(error.value))
  {
    if error.Some? then Some(Emitted(OnError, Some(ErrorData(error.value)))) else None
  }

  /** `handleAudioRouteChange`: `ON_BECOME_NOISY` exactly for the reasons
      `oldDeviceUnavailable` and `override`; a missing reason, any other
      reason, or a raw value with no reason sends nothing. */
  function RouteChangeEvent(reason: Option<nat>): (e: Option<Emitted>)
    ensures e.Some? <==> reason == Some(ReasonOldDeviceUnavailable) || reason == Some(ReasonOverride)
    ensures e.Some? ==> e.value == Emitted(OnBecomeNoisy, None)
  {
    match reason
    case None => None
    case Some(r) =>
      if r == ReasonOldDeviceUnavailable || r == ReasonOverride then Some(Emitted(OnBecomeNoisy, None)) else None
  }

  /** `handleTimeUpdate`: `ON_PROGRESS` with the position and the current
      item's duration, zero when there is no item. */
  function ProgressData(time: real, duration: Option<real>): Body {
    map["currentTime" := Num(time), "duration" := Num(duration.GetOr(0.0))]
  }

  /** The seek-completion payload: where the item is now, as a number, and
      where the seek went, as a boxed time rather than a number. */
  function SeekData(currentTime: real, target: real): (d: Body)
    ensures d.Keys == {"currentTime", "seekTime"}
    ensures d["currentTime"] == Num(currentTime)
    ensures d["seekTime"] == BoxedTime(target) && !d["seekTime"].Num?
  {
    map["currentTime" := Num(currentTime), "seekTime" := BoxedTime(target)]
  }
}

=== FILE: av_player.dfy ===
/** The iOS playback session: `Player` in ios/Player.swift and its older
    copy Player.swift, as one class whose `variant` says which copy it is.
    The two copies differ in two places: the current one re-asserts
    `actionAtItemEnd = .none` after loading a source, and it queues the
    attaching of notification listeners in the ready handler (after
    `ON_LOAD` is sent) where the older one attaches first, inline.

    The engine (`AVPlayer`) is an identity plus a ghost log of the calls
    made to it, and the engine's current item is a field; what the engine
    reports (item status, positions, durations, rates) arrives as method
    parameters. The closures `dispose` and `setSource` schedule run as one
    step each. Events the session sends through the emitter are appended
    to `sent`. */
module AvPlayer {
  import opened Wrappers
  import opened Values
  import opened Events
  import opened Sources
  import opened AvEngine
  import opened AvEvents
  import opened Observer

  datatype Variant = Current | Legacy

  /** `k` copies of `s`, one after the other. */
  function Repeat<T>(s: seq<T>, k: nat): seq<T> {
    if k == 0 then [] else Repeat(s, k - 1) + s
  }

  /** What the handler the routing picks for `n` sends: a failure carried
      by an end-of-item notification, `ON_STALLED`, or the route-change
      event. */
  function RoutedEvent(n: Notification): Option<Emitted> {
    match n.name
    case DidPlayToEndTime => FailedToPlayToEndEvent(n.failure)
    case PlaybackStalled => Some(Emitted(OnStalled, None))
    case RouteChange => RouteChangeEvent(n.reason)
  }

  /** Everything about a session a call can change, its observer's state
      included, as one value. */
  datatype SessionState = SessionState(
    player: Option<EngineId>, currentItem: Option<PlayerItem>, volume: Option<real>,
    paused: bool, disposed: bool, loop: bool, nextItemId: ItemId,
    pendingSeeks: seq<real>, pendingAttaches: nat,
    engineLog: seq<EngineCall>, sent: seq<Body>, observer: ObserverState)

  /** The state `init` leaves a new session on `engine` in: the engine
      allows external playback and holds at the end of an item, there is no
      item and no volume, the session is neither paused, disposed nor
      looping, nothing is sent or pending, and the observer watches
      nothing. */
  function InitialState(engine: EngineId): SessionState {
    SessionState(Some(engine), None, None, false, false, false, 0, [], 0,
                 [AllowExternalPlayback, SetActionAtItemEndNone], [],
                 ObserverState(None, None, None, None, None, [], []))
  }

  /** The state `dispose` leaves a session in: a disposed session is left as
      it is; otherwise the engine is paused, emptied and dropped, the
      observer is cleared of everything it watches, and `paused` and `loop`
      are reset. */
  function DisposedState(s: SessionState): SessionState {
    if s.disposed then s
    else s.(disposed := true, player := None, currentItem := None, paused := false, loop := false,
            engineLog := s.engineLog + (if s.player.Some? then [EngineCall.Pause, ReplaceCurrentItem(None)] else []),
            observer := s.observer.(player := None, playerItem := None, playerObservation := None,
                                    itemObservation := None, timeObserver := None, registrations := [],
                                    timeLog := s.observer.timeLog + TokenRemoval(s.observer.timeObserver)))
  }

  /** The state `setSource(src)` leaves a session of copy `variant` in. The
      observer always lets go of the engine and item (removing its time
      observer). With a url, a new item is observed and loaded into the
      engine, if any, the engine is observed again with a new periodic
      observer, and `paused` and the volume follow the source. */
  function SourceSetState(s: SessionState, src: SourceDict, variant: Variant): SessionState {
    var released := s.observer.(player := None, playerItem := None, playerObservation := None,
                                itemObservation := None, timeObserver := None,
                                timeLog := s.observer.timeLog + TokenRemoval(s.observer.timeObserver));
    if src.url.None? then s.(observer := released)
    else
      var item := PlayerItem(s.nextItemId, AssetFor(src).value);
      var e := s.player;
      s.(nextItemId := s.nextItemId + 1,
         currentItem := if e.Some? then Some(item) else None,
         engineLog := s.engineLog + (if e.Some? then LoadCommands(item, src, variant == Current) else []),
         paused := src.autoplay != Some(true),
         volume := if src.volume.Some? then src.volume else s.volume,
         observer := released.(player := e, playerItem := Some(item.id), playerObservation := e,
                               itemObservation := Some(item.id), timeObserver := e,
                               timeLog := released.timeLog + (if e.Some? then [AddPeriodicTimeObserver(e.value, ProgressIntervalSeconds())] else [])))
  }

  class Player {
    const variant: Variant
    const playerId: string
    /** The observer this session is the handler of. */
    const observer: PlayerObserver
    /** The engine; `None` once disposed. */
    var player: Option<EngineId>
    /** The engine's current item. */
    var currentItem: Option<PlayerItem>
    var volume: Option<real>
    var paused: bool
    var disposed: bool
    var loop: bool
    /** The identity the next item created gets. */
    var nextItemId: ItemId
    /** Targets of issued seeks whose completion has not run yet, oldest first. */
    var pendingSeeks: seq<real>
    /** Attach closures queued by the ready handler and not run yet (current copy). */
    var pendingAttaches: nat
    ghost var engineLog: seq<EngineCall>
    /** Bodies of the `playerEvent`s sent, in order. */
    var sent: seq<Body>

    /** The session is its observer's handler, the observer only ever
        watches this session's engine, and a disposed session has no engine. */
    ghost predicate Valid()
      reads this, observer
    {
      && observer.Valid()
      && observer.hasHandler
      && (disposed ==> player.None?)
      && (player.None? ==> currentItem.None?)
      && (observer.player.Some? ==> observer.player == player)
      && (variant == Legacy ==> pendingAttaches == 0)
    }

    /** The session's current state. */
    ghost function State(): SessionState
      reads this, observer
    {
      SessionState(player, currentItem, volume, paused, disposed, loop, nextItemId,
                   pendingSeeks, pendingAttaches, engineLog, sent, observer.State())
    }

    /** The body `sendPlayerEvent` emits for `e`, if any. */
    function Sends(e: Option<Emitted>): (bodies: seq<Body>)
      ensures |bodies| == (if e.Some? then 1 else 0)
      ensures e.Some? ==> "eventType" in bodies[0] && "playerId" in bodies[0]
    {
      if e.Some? then [EventBody(Some(playerId), e.value.code, e.value.data)] else []
    }

    /** The object `attachPlayerEventListeners` passes for the end-of-item
        entry: the current item of the observer's player. */
    function EndSender(): Option<ItemId>
      reads this, observer
    {
      if observer.player.Some? && currentItem.Some? then Some(currentItem.value.id) else None
    }

    /** `init(eventEmitter:playerId:)`: a fresh engine that allows external
        playback and holds at the end of an item. */
    constructor (variant: Variant, playerId: string, engine: EngineId)
      ensures Valid()
      ensures this.variant == variant && this.playerId == playerId
      ensures player == Some(engine) && currentItem.None? && volume.None?
      ensures !paused && !disposed && !loop && pendingSeeks == [] && pendingAttaches == 0
      ensures engineLog == [AllowExternalPlayback, SetActionAtItemEndNone] && sent == []
      ensures observer.player.None? && observer.playerItem.None? && observer.registrations == []
      ensures State() == InitialState(engine)
      ensures fresh(observer)
    {
      this.variant := variant;
      this.playerId := playerId;
      observer := new PlayerObserver(true);
      player := Some(engine);
      currentItem := None;
      volume := None;
      paused, disposed, loop := false, false, false;
      nextItemId := 0;
      pendingSeeks := [];
      pendingAttaches := 0;
      engineLog := [AllowExternalPlayback, SetActionAtItemEndNone];
      sent := [];
    }

    /** `dispose`: effective once. Stops and drops the engine, removes every
        notification entry and observation, and clears `paused` and `loop`;
        a second call changes nothing. */
    method Dispose()
      requires Valid()
      modifies this, observer
      ensures Valid() && State() == DisposedState(old(State()))
      ensures old(disposed) ==> unchanged(this) && unchanged(observer)
      ensures disposed && player.None? && currentItem.None?
      ensures !old(disposed) ==> !paused && !loop
      ensures engineLog == old(engineLog) + (if !old(disposed) && old(player).Some? then [EngineCall.Pause, ReplaceCurrentItem(None)] else [])
      ensures !old(disposed) ==> observer.player.None? && observer.playerItem.None? && observer.registrations == []
      ensures !old(disposed) ==> observer.timeObserver.None? && observer.installedTimeObservers == 0
      ensures !old(disposed) ==> observer.timeLog == old(observer.timeLog) + TokenRemoval(old(observer.timeObserver))
      ensures volume == old(volume) && sent == old(sent) && pendingSeeks == old(pendingSeeks)
      ensures nextItemId == old(nextItemId) && pendingAttaches == old(pendingAttaches)
    {
      if !disposed {
        DisposeOnce();
      }
    }

    /** The body of `dispose` past its guard. */
    method DisposeOnce()
      requires Valid() && !disposed
      modifies this, observer
      ensures Valid() && State() == DisposedState(old(State()))
      ensures observer.installedTimeObservers == 0
    {
      ReleaseEngine();
      observer.registrations := [];
      observer.ClearPlayer();
    }

    /** The session's half of `dispose`: marks it disposed, pauses, empties
        and drops the engine, and resets `paused` and `loop`. */
    method ReleaseEngine()
      requires player.None? ==> currentItem.None?
      modifies this
      ensures State() == old(State()).(disposed := true, player := None, currentItem := None, paused := false, loop := false,
        engineLog := old(engineLog) + (if old(player).Some? then [EngineCall.Pause, ReplaceCurrentItem(None)] else []))
    {
      disposed := true;
      if player.Some? {
        engineLog := engineLog + [EngineCall.Pause, ReplaceCurrentItem(None)];
        currentItem := None;
        player := None;
      }
      paused := false;
      loop := false;
    }

    /** `setSource`: always stops observing; with a `url`, builds a fresh
        item, observes it, loads it into the engine (if any) with the
        autoplay and volume the source asks for, and observes the engine. */
    method SetSource(src: SourceDict)
      requires Valid()
      modifies this, observer
      ensures Valid()
      ensures src.url.None? ==>
        && observer.player.None? && observer.playerItem.None?
        && engineLog == old(engineLog) && currentItem == old(currentItem)
        && paused == old(paused) && volume == old(volume) && nextItemId == old(nextItemId)
      ensures src.url.Some? ==> nextItemId == old(nextItemId) + 1
      ensures src.url.Some? ==> observer.playerItem == Some(old(nextItemId)) && observer.player == player
      ensures src.url.Some? ==> observer.itemObservation == Some(old(nextItemId)) && observer.playerObservation == player
      ensures src.url.None? ==> observer.itemObservation.None? && observer.playerObservation.None?
      ensures observer.timeLog == old(observer.timeLog) + TokenRemoval(old(observer.timeObserver))
        + (if src.url.Some? && player.Some? then [AddPeriodicTimeObserver(player.value, ProgressIntervalSeconds())] else [])
      ensures State() == SourceSetState(old(State()), src, variant)
      ensures src.url.Some? ==> currentItem == (if player.Some? then Some(PlayerItem(old(nextItemId), AssetFor(src).value)) else None)
      ensures src.url.Some? ==> engineLog == old(engineLog) + (if player.Some? then LoadCommands(PlayerItem(old(nextItemId), AssetFor(src).value), src, variant == Current) else [])
      ensures src.url.Some? ==> paused == (src.autoplay != Some(true))
      ensures src.url.Some? ==> volume == (if src.volume.Some? then src.volume else old(volume))
      ensures observer.timeObserver == observer.player && observer.registrations == old(observer.registrations)
      ensures disposed ==> engineLog == old(engineLog)
      ensures player == old(player) && disposed == old(disposed) && loop == old(loop)
      ensures sent == old(sent) && pendingSeeks == old(pendingSeeks) && pendingAttaches == old(pendingAttaches)
    {
      observer.SetPlayer(None);
      observer.SetPlayerItem(None);
      if src.url.Some? {
        LoadSource(src);
      }
    }

    /** The part of `setSource` that runs when the source has a `url`. */
    method LoadSource(src: SourceDict)
      requires Valid() && src.url.Some?
      requires observer.player.None? && observer.playerItem.None?
      modifies this, observer
      ensures Valid()
      ensures nextItemId == old(nextItemId) + 1
      ensures observer.playerItem == Some(old(nextItemId)) && observer.player == player
      ensures observer.itemObservation == Some(old(nextItemId)) && observer.playerObservation == player
      ensures observer.timeLog == old(observer.timeLog)
        + (if player.Some? then [AddPeriodicTimeObserver(player.value, ProgressIntervalSeconds())] else [])
      ensures currentItem == (if player.Some? then Some(PlayerItem(old(nextItemId), AssetFor(src).value)) else None)
      ensures engineLog == old(engineLog) + (if player.Some? then LoadCommands(PlayerItem(old(nextItemId), AssetFor(src).value), src, variant == Current) else [])
      ensures paused == (src.autoplay != Some(true))
      ensures volume == (if src.volume.Some? then src.volume else old(volume))
      ensures observer.timeObserver == observer.player && observer.registrations == old(observer.registrations)
      ensures player == old(player) && disposed == old(disposed) && loop == old(loop)
      ensures sent == old(sent) && pendingSeeks == old(pendingSeeks) && pendingAttaches == old(pendingAttaches)
    {
      var item := PlayerItem(nextItemId, AssetFor(src).value);
      nextItemId := nextItemId + 1;
      observer.SetPlayerItem(Some(item.id));
      if player.Some? {
        engineLog := engineLog + LoadCommands(item, src, variant == Current);
        currentItem := Some(item);
      }
      observer.SetPlayer(player);
      paused := src.autoplay != Some(true);
      if src.volume.Some? {
        volume := src.volume;
      }
    }

    /** `play`: clears `paused`, then plays the engine if there is one. */
    method Play()
      requires Valid()
      modifies this
      ensures Valid() && !paused
      ensures engineLog == old(engineLog) + (if player.Some? then [EngineCall.Play] else [])
      ensures disposed ==> engineLog == old(engineLog)
      ensures player == old(player) && currentItem == old(currentItem) && volume == old(volume)
      ensures disposed == old(disposed) && loop == old(loop) && sent == old(sent)
      ensures nextItemId == old(nextItemId) && pendingSeeks == old(pendingSeeks) && pendingAttaches == old(pendingAttaches)
    {
      paused := false;
      if player.Some? {
        engineLog := engineLog + [EngineCall.Play];
      }
    }

    /** `pause`: sets `paused`, then pauses the engine if there is one. */
    method Pause()
      requires Valid()
      modifies this
      ensures Valid() && paused
      ensures engineLog == old(engineLog) + (if player.Some? then [EngineCall.Pause] else [])
      ensures disposed ==> engineLog == old(engineLog)
      ensures player == old(player) && currentItem == old(currentItem) && volume == old(volume)
      ensures disposed == old(disposed) && loop == old(loop) && sent == old(sent)
      ensures nextItemId == old(nextItemId) && pendingSeeks == old(pendingSeeks) && pendingAttaches == old(pendingAttaches)
    {
      paused := true;
      if player.Some? {
        engineLog := engineLog + [EngineCall.Pause];
      }
    }

    /** `setVolume`: remembers the volume, then applies it to the engine if
        there is one. */
    method SetVolume(v: real)
      requires Valid()
      modifies this
      ensures Valid() && volume == Some(v)
      ensures engineLog == old(engineLog) + (if player.Some? then [EngineCall.SetVolume(v)] else [])
      ensures disposed ==> engineLog == old(engineLog)
      ensures player == old(player) && currentItem == old(currentItem) && paused == old(paused)
      ensures disposed == old(disposed) && loop == old(loop) && sent == old(sent)
      ensures nextItemId == old(nextItemId) && pendingSeeks == old(pendingSeeks) && pendingAttaches == old(pendingAttaches)
    {
      volume := Some(v);
      if player.Some? {
        engineLog := engineLog + [EngineCall.SetVolume(v)];
      }
    }

    /** `setLoop`: only remembers the flag. */
    method SetLoop(l: bool)
      requires Valid()
      modifies this
      ensures Valid() && loop == l
      ensures player == old(player) && currentItem == old(currentItem) && paused == old(paused)
      ensures volume == old(volume) && disposed == old(disposed) && sent == old(sent) && engineLog == old(engineLog)
      ensures nextItemId == old(nextItemId) && pendingSeeks == old(pendingSeeks) && pendingAttaches == old(pendingAttaches)
    {
      loop := l;
    }

    /** `seek`, with the current item's `status` and `position` as the
        engine reports them: seeks the engine only as `SeekPlanFor` allows,
        and then awaits one completion for that target. */
    method Seek(req: SeekDict, status: ItemStatus, position: real)
      requires Valid()
      modifies this
      ensures Valid()
      ensures
        var plan := SeekPlanFor(player.Some?, req, if currentItem.Some? then Some(ItemSnapshot(status, position)) else None);
        && engineLog == old(engineLog) + (if plan.Some? then [SeekTo(plan.value.target, plan.value.tolerance)] else [])
        && pendingSeeks == old(pendingSeeks) + (if plan.Some? then [plan.value.target] else [])
      ensures disposed ==> engineLog == old(engineLog) && pendingSeeks == old(pendingSeeks)
      ensures player == old(player) && currentItem == old(currentItem) && paused == old(paused) && loop == old(loop)
      ensures volume == old(volume) && disposed == old(disposed) && sent == old(sent)
      ensures nextItemId == old(nextItemId) && pendingAttaches == old(pendingAttaches)
    {
      var plan := SeekPlanFor(player.Some?, req, if currentItem.Some? then Some(ItemSnapshot(status, position)) else None);
      if plan.Some? {
        engineLog := engineLog + [SeekTo(plan.value.target, plan.value.tolerance)];
        pendingSeeks := pendingSeeks + [plan.value.target];
      }
    }

    /** The completion of the oldest pending seek, with the seeked item's
        position at that moment: sends `ON_SEEK` with it and the target. */
    method SeekCompleted(position: real)
      requires Valid() && |pendingSeeks| > 0
      modifies this
      ensures Valid()
      ensures sent == old(sent) + Sends(Some(Emitted(OnSeek, Some(SeekData(position, old(pendingSeeks)[0])))))
      ensures pendingSeeks == old(pendingSeeks)[1..]
      ensures player == old(player) && currentItem == old(currentItem) && paused == old(paused) && loop == old(loop)
      ensures volume == old(volume) && disposed == old(disposed) && engineLog == old(engineLog)
      ensures nextItemId == old(nextItemId) && pendingAttaches == old(pendingAttaches)
    {
      sent := sent + Sends(Some(Emitted(OnSeek, Some(SeekData(position, pendingSeeks[0])))));
      pendingSeeks := pendingSeeks[1..];
    }

    /** `handleTimeUpdate`: `ON_PROGRESS` with the position and the current
        item's duration (zero without an item). */
    method HandleTimeUpdate(time: real, itemDuration: real)
      requires Valid()
      modifies this
      ensures Valid()
      ensures sent == old(sent) + Sends(Some(Emitted(OnProgress, Some(ProgressData(time, if currentItem.Some? then Some(itemDuration) else None)))))
      ensures unchanged(this`player, this`currentItem, this`paused, this`loop, this`volume, this`disposed, this`engineLog)
      ensures unchanged(this`nextItemId, this`pendingSeeks, this`pendingAttaches)
    {
      sent := sent + Sends(Some(Emitted(OnProgress, Some(ProgressData(time, if currentItem.Some? then Some(itemDuration) else None)))));
    }

    /** `handlePlaybackRateChange`, given the engine's new rate. */
    method HandlePlaybackRateChange(rate: real)
      requires Valid()
      modifies this
      ensures Valid()
      ensures sent == old(sent) + Sends(RateEvent(rate))
      ensures unchanged(this`player, this`currentItem, this`paused, this`loop, this`volume, this`disposed, this`engineLog)
      ensures unchanged(this`nextItemId, this`pendingSeeks, this`pendingAttaches)
    {
      sent := sent + Sends(RateEvent(rate));
    }

    /** `handlePlayerItemStatusChange`, given the item's status and, for a
        ready item, what `handleReadyToPlay` reads from it. A ready item
        also gets the notification listeners attached: inline and before
        `ON_LOAD` in the older copy, queued after it in the current one. */
    method HandlePlayerItemStatusChange(status: ItemStatus, info: LoadInfo)
      requires Valid()
      modifies this, observer
      ensures Valid()
      ensures sent == old(sent) + Sends(StatusEvent(status, info))
      ensures observer.registrations ==
        if variant == Legacy && status == ReadyToPlay then Attached(old(observer.registrations), old(EndSender()))
        else old(observer.registrations)
      ensures pendingAttaches == old(pendingAttaches) + (if variant == Current && status == ReadyToPlay then 1 else 0)
      ensures unchanged(this`player, this`currentItem, this`paused, this`loop, this`volume, this`disposed, this`engineLog)
      ensures unchanged(this`nextItemId, this`pendingSeeks)
      ensures unchanged(observer`player, observer`playerItem, observer`timeObserver, observer`timeLog)
      ensures unchanged(observer`playerObservation, observer`itemObservation)
    {
      if status == ReadyToPlay {
        if variant == Legacy {
          observer.AttachPlayerEventListeners(EndSender());
        } else {
          pendingAttaches := pendingAttaches + 1;
        }
      }
      sent := sent + Sends(StatusEvent(status, info));
    }

    /** A queued attach closure of the current copy runs: it attaches with
        the observer player's current item at the time it runs. */
    method RunPendingAttach()
      requires Valid() && pendingAttaches > 0
      modifies this, observer
      ensures Valid()
      ensures observer.registrations == Attached(old(observer.registrations), old(EndSender()))
      ensures pendingAttaches == old(pendingAttaches) - 1
      ensures unchanged(this`player, this`currentItem, this`paused, this`loop, this`volume, this`disposed, this`engineLog)
      ensures unchanged(this`nextItemId, this`pendingSeeks, this`sent)
      ensures unchanged(observer`player, observer`playerItem, observer`timeObserver, observer`timeLog)
      ensures unchanged(observer`playerObservation, observer`itemObservation)
    {
      observer.AttachPlayerEventListeners(EndSender());
      pendingAttaches := pendingAttaches - 1;
    }

    /** `handleTimeMetadataChange`: `ON_TIMED_METADATA`, no data. */
    method HandleTimeMetadataChange()
      requires Valid()
      modifies this
      ensures Valid()
      ensures sent == old(sent) + Sends(Some(Emitted(OnTimedMetadata, None)))
      ensures unchanged(this`player, this`currentItem, this`paused, this`loop, this`volume, this`disposed, this`engineLog)
      ensures unchanged(this`nextItemId, this`pendingSeeks, this`pendingAttaches)
    {
      sent := sent + Sends(Some(Emitted(OnTimedMetadata, None)));
    }

    /** `handlePlaybackBufferKeyEmpty` and `handlePlaybackLikelyToKeepUp`
        both send `ON_BUFFERING` without data. */
    method HandleBufferingChange()
      requires Valid()
      modifies this
      ensures Valid()
      ensures sent == old(sent) + Sends(Some(Emitted(OnBuffering, None)))
      ensures unchanged(this`player, this`currentItem, this`paused, this`loop, this`volume, this`disposed, this`engineLog)
      ensures unchanged(this`nextItemId, this`pendingSeeks, this`pendingAttaches)
    {
      sent := sent + Sends(Some(Emitted(OnBuffering, None)));
    }

    /** `handleLoadedTimeRanges`, given the item's loaded ranges. */
    method HandleLoadedTimeRanges(ranges: seq<TimeRange>)
      requires Valid()
      modifies this
      ensures Valid()
      ensures sent == old(sent) + Sends(LoadedTimeRangesEvent(ranges))
      ensures unchanged(this`player, this`currentItem, this`paused, this`loop, this`volume, this`disposed, this`engineLog)
      ensures unchanged(this`nextItemId, this`pendingSeeks, this`pendingAttaches)
    {
      sent := sent + Sends(LoadedTimeRangesEvent(ranges));
    }

    /** `handlePlayerItemDidReachEnd(notification:)`: `ON_ERROR` only when
        the notification carries a failure. */
    method HandlePlayerItemDidReachEnd(n: Notification)
      requires Valid()
      modifies this
      ensures Valid()
      ensures sent == old(sent) + Sends(FailedToPlayToEndEvent(n.failure))
      ensures unchanged(this`player, this`currentItem, this`paused, this`loop, this`volume, this`disposed, this`engineLog)
      ensures unchanged(this`nextItemId, this`pendingSeeks, this`pendingAttaches)
    {
      sent := sent + Sends(FailedToPlayToEndEvent(n.failure));
    }

    /** `handlePlaybackStalled`: `ON_STALLED`, no data. */
    method HandlePlaybackStalled()
      requires Valid()
      modifies this
      ensures Valid()
      ensures sent == old(sent) + Sends(Some(Emitted(OnStalled, None)))
      ensures unchanged(this`player, this`currentItem, this`paused, this`loop, this`volume, this`disposed, this`engineLog)
      ensures unchanged(this`nextItemId, this`pendingSeeks, this`pendingAttaches)
    {
      sent := sent + Sends(Some(Emitted(OnStalled, None)));
    }

    /** `handleAudioRouteChange`, given the reason the notification carries. */
    method HandleAudioRouteChange(n: Notification)
      requires Valid()
      modifies this
      ensures Valid()
      ensures sent == old(sent) + Sends(RouteChangeEvent(n.reason))
      ensures unchanged(this`player, this`currentItem, this`paused, this`loop, this`volume, this`disposed, this`engineLog)
      ensures unchanged(this`nextItemId, this`pendingSeeks, this`pendingAttaches)
    {
      sent := sent + Sends(RouteChangeEvent(n.reason));
    }

    /** `playerItemDidReachEnd`: always `ON_END`; without looping the
        periodic progress observer is removed, with looping the ended item
        is rewound and the engine plays again. */
    method PlayerItemDidReachEnd(n: Notification)
      requires Valid()
      modifies this, observer
      ensures Valid()
      ensures sent == old(sent) + Sends(Some(Emitted(OnEnd, None)))
      ensures !loop ==> observer.timeObserver.None? && observer.installedTimeObservers == 0 && engineLog == old(engineLog)
      ensures !loop ==> observer.timeLog == old(observer.timeLog) + TokenRemoval(old(observer.timeObserver))
      ensures loop ==> engineLog == old(engineLog) + LoopCommands(loop, n.sender, player.Some?) && unchanged(observer)
      ensures unchanged(this`player, this`currentItem, this`paused, this`loop, this`volume, this`disposed)
      ensures unchanged(this`nextItemId, this`pendingSeeks, this`pendingAttaches)
      ensures unchanged(observer`player, observer`playerItem, observer`registrations)
      ensures unchanged(observer`playerObservation, observer`itemObservation)
    {
      sent := sent + Sends(Some(Emitted(OnEnd, None)));
      if !loop {
        observer.RemovePlayerTimeObserver();
        return;
      }
      engineLog := engineLog + LoopCommands(loop, n.sender, player.Some?);
    }

    /** The notification center posts `n`: for each entry of this
        session that receives it, in order, the handler
        `attachPlayerEventListeners` named for it runs once. An end-of-item
        notification thus only ever reports a failure it carries: it sends
        no `ON_END` and never loops. */
    method Notify(n: Notification)
      requires Valid()
      modifies this
      ensures Valid()
      ensures sent == old(sent) + Repeat(Sends(RoutedEvent(n)), Receivers(observer.registrations, n))
      ensures n.name == DidPlayToEndTime && n.failure.None? ==> sent == old(sent)
      ensures engineLog == old(engineLog)
      ensures unchanged(this`player, this`currentItem, this`paused, this`loop, this`volume, this`disposed)
      ensures unchanged(this`nextItemId, this`pendingSeeks, this`pendingAttaches)
    {
      var regs := observer.registrations;
      ghost var bodies := Sends(RoutedEvent(n));
      var i := 0;
      while i < |regs|
        invariant 0 <= i <= |regs|
        invariant Valid()
        invariant sent == old(sent) + Repeat(bodies, Receivers(regs[..i], n))
        invariant engineLog == old(engineLog)
        invariant unchanged(this`player, this`currentItem, this`paused, this`loop, this`volume, this`disposed)
        invariant unchanged(this`nextItemId, this`pendingSeeks, this`pendingAttaches)
      {
        ReceiversStep(regs, i, n);
        if Receives(regs[i], n) {
          RunRoutedHandler(n);
        }
        i := i + 1;
      }
      assert regs[..i] == regs;
      if n.name == DidPlayToEndTime && n.failure.None? {
        EndOfItemIsSilent(this, n, Receivers(regs, n));
      }
    }

    /** One run of the handler the routing names for `n`. */
    method RunRoutedHandler(n: Notification)
      requires Valid()
      modifies this
      ensures Valid()
      ensures sent == old(sent) + Sends(RoutedEvent(n))
      ensures engineLog == old(engineLog)
      ensures unchanged(this`player, this`currentItem, this`paused, this`loop, this`volume, this`disposed)
      ensures unchanged(this`nextItemId, this`pendingSeeks, this`pendingAttaches)
    {
      match SelectorFor(n.name)
      case HandlePlayerItemDidReachEnd => HandlePlayerItemDidReachEnd(n);
      case HandlePlaybackStalled => HandlePlaybackStalled();
      case HandleAudioRouteChange => HandleAudioRouteChange(n);
      case PlayerItemDidReachEnd => assert false;
    }
  }

  /** A normal end of item (a `DidPlayToEndTime` notification, which
      carries no failure) is routed to `handlePlayerItemDidReachEnd`, and
      however many entries receive it, nothing is sent. */
  lemma {:induction false} EndOfItemIsSilent(p: Player, n: Notification, k: nat)
    requires n.name == DidPlayToEndTime && n.failure.None?
    ensures SelectorFor(n.name) == HandlePlayerItemDidReachEnd
    ensures Repeat(p.Sends(RoutedEvent(n)), k) == []
  {
    if k > 0 {
      EndOfItemIsSilent(p, n, k - 1);
    }
  }
}

=== FILE: bridge.dfy ===
/** What a bridged module method hands back to JavaScript through its
    promise. */
module Bridge {
  import opened Values

  datatype Reply =
    | Resolved(value: Value)
    | ResolvedMap(body: Body)
    | Rejected(code: string, message: string)

  /** The rejection every registry command gives for an id it does not hold. */
  const PlayerNotFound: Reply := Rejected("E_PLAYER_NOT_FOUND", "playerId is invalid")
}

=== FILE: events.dfy ===
/** The closed vocabulary of player events shared by the native sides and the
    JavaScript wrapper. */
module Events {
  import opened Wrappers
  import opened Values

  datatype EventCode =
    | OnLoad | OnError | OnBuffering | OnTimedMetadata | OnStalled | OnPlay
    | OnPause | OnProgress | OnEnd | OnSeek | OnBecomeNoisy | OnExternalPlayer

  /** The `eventType` string the native side puts in an event body. */
  function CodeName(c: EventCode): string {
    match c
    case OnLoad => "ON_LOAD"
    case OnError => "ON_ERROR"
    case OnBuffering => "ON_BUFFERING"
    case OnTimedMetadata => "ON_TIMED_METADATA"
    case OnStalled => "ON_STALLED"
    case OnPlay => "ON_PLAY"
    case OnPause => "ON_PAUSE"
    case OnProgress => "ON_PROGRESS"
    case OnEnd => "ON_END"
    case OnSeek => "ON_SEEK"
    case OnBecomeNoisy => "ON_BECOME_NOISY"
    case OnExternalPlayer => "ON_EXTERNAL_PLAYER"
  }

  /** What a native handler asks to send: an event code and optional extra data. */
  datatype Emitted = Emitted(code: EventCode, data: Option<Body>)

  /** What a ready item reports for `ON_LOAD`: its duration, position and
      capability flags. */
  datatype LoadInfo = LoadInfo(
    duration: real, currentTime: real,
    canPlayReverse: bool, canPlayFastForward: bool, canPlaySlowForward: bool,
    canPlaySlowReverse: bool, canStepBackward: bool, canStepForward: bool)

  /** `playerId as Any`: a missing id is bridged as null. */
  function IdValue(playerId: Option<string>): Value {
    if playerId.Some? then Str(playerId.value) else Null
  }

  function DataKeys(data: Option<Body>): set<string> {
    if data.Some? then data.value.Keys else {}
  }

  /** The body of a `playerEvent`: `{playerId, eventType}` merged with the
      data, a data entry winning over the two fixed keys. */
  function EventBody(playerId: Option<string>, code: EventCode, data: Option<Body>): (body: Body)
    ensures body.Keys == {"playerId", "eventType"} + DataKeys(data)
    ensures data.Some? ==> forall k :: k in data.value ==> body[k] == data.value[k]
    ensures "eventType" !in DataKeys(data) ==> body["eventType"] == Str(CodeName(code))
    ensures "playerId" !in DataKeys(data) ==> body["playerId"] == IdValue(playerId)
  {
    var base := map["playerId" := IdValue(playerId), "eventType" := Str(CodeName(code))];
    if data.Some? then base + data.value else base
  }

  /** The `ON_LOAD` payload. */
  function LoadData(info: LoadInfo): Body {
    map[
      "duration" := Num(info.duration),
      "currentTime" := Num(info.currentTime),
      "canPlayReverse" := Bool(info.canPlayReverse),
      "canPlayFastForward" := Bool(info.canPlayFastForward),
      "canPlaySlowForward" := Bool(info.canPlaySlowForward),
      "canPlaySlowReverse" := Bool(info.canPlaySlowReverse),
      "canStepBackward" := Bool(info.canStepBackward),
      "canStepForward" := Bool(info.canStepForward)]
  }
}

=== FILE: ios_module.dfy ===
/** The iOS session registry: `Playback` in ios/Playback.swift. It maps
    player ids to sessions of ios/Player.swift, creates and disposes them,
    and forwards every command to the session registered under the id it
    names. */
module IosModule {
  import opened Wrappers
  import opened Values
  import opened Sources
  import opened Bridge
  import AvEngine
  import AvPlayer

  class Playback {
    /** The static `players` dictionary. */
    var players: map<string, AvPlayer.Player>

    /** The observers of the registered sessions. */
    ghost function Observers(): set<object>
      reads this, players.Values
    {
      set id | id in players :: players[id].observer
    }

    /** Every registered session is a valid session of the current copy
        carrying the id it is registered under, and no session or observer
        is shared between two ids (each `createPlayer` builds new ones). */
    ghost predicate Valid()
      reads this, players.Values, Observers()
    {
      && (forall id :: id in players ==>
            && players[id].Valid() && players[id].playerId == id
            && players[id].variant == AvPlayer.Current)
      && (forall id, id' :: id in players && id' in players && id != id' ==>
            players[id] != players[id'] && players[id].observer != players[id'].observer)
    }

    /** What a command on `playerId` may change: the session registered
        under it and its observer, if any. */
    ghost function Target(playerId: string): set<object>
      reads this, players.Values
    {
      if playerId in players then {players[playerId], players[playerId].observer} else {}
    }

    constructor ()
      ensures Valid() && players == map[]
    {
      players := map[];
    }

    /** `createPlayer`: a new session on the engine `engine`, stored under
        `playerId` whether or not the id was taken (a session it replaces is
        not disposed); resolves with the empty string. */
    method CreatePlayer(playerId: string, engine: AvEngine.EngineId) returns (reply: Reply)
      requires Valid()
      modifies this
      ensures Valid()
      ensures playerId in players && fresh(players[playerId]) && fresh(players[playerId].observer)
      ensures players == old(players)[playerId := players[playerId]]
      ensures players[playerId].player == Some(engine) && !players[playerId].disposed && players[playerId].sent == []
      ensures players[playerId].State() == AvPlayer.InitialState(engine)
      ensures reply == Resolved(Str(""))
    {
      var p := new AvPlayer.Player(AvPlayer.Current, playerId, engine);
      players := players[playerId := p];
      reply := Resolved(Str(""));
    }

    /** `disposePlayer`: rejects an unknown id and changes nothing;
        otherwise disposes that session, drops the id and resolves nil. */
    method DisposePlayer(playerId: string) returns (reply: Reply)
      requires Valid()
      modifies this, Target(playerId)
      ensures Valid()
      ensures playerId !in old(players) ==> reply == PlayerNotFound && players == old(players)
      ensures playerId in old(players) ==>
        && reply == Resolved(Null)
        && players == old(players) - {playerId}
        && old(players)[playerId].disposed && old(players)[playerId].player.None?
        && old(players)[playerId].State() == AvPlayer.DisposedState(old(players[playerId].State()))
      ensures playerId !in players
    {
      if playerId !in players {
        return PlayerNotFound;
      }
      var p := players[playerId];
      p.Dispose();
      players := players - {playerId};
      reply := Resolved(Null);
    }

    /** `setSource`: rejects an unknown id, otherwise forwards the source
        once: without a url the session only stops observing; with one it
        builds exactly one new item and loads it into its engine, if any. */
    method SetSource(playerId: string, src: SourceDict) returns (reply: Reply)
      requires Valid()
      modifies Target(playerId)
      ensures Valid() && players == old(players)
      ensures playerId !in players ==> reply == PlayerNotFound
      ensures playerId in players ==> reply == Resolved(Null)
      ensures playerId in players && src.url.None? ==>
        var p := players[playerId];
        && p.engineLog == old(p.engineLog) && p.nextItemId == old(p.nextItemId)
        && p.currentItem == old(p.currentItem) && p.volume == old(p.volume) && p.paused == old(p.paused)
      ensures playerId in players && src.url.Some? ==>
        var p := players[playerId];
        var item := AvEngine.PlayerItem(old(p.nextItemId), AvEngine.AssetFor(src).value);
        && p.nextItemId == old(p.nextItemId) + 1
        && p.engineLog == old(p.engineLog) + (if p.player.Some? then AvEngine.LoadCommands(item, src, true) else [])
        && p.currentItem == (if p.player.Some? then Some(item) else None)
        && p.paused == (src.autoplay != Some(true))
        && p.volume == (if src.volume.Some? then src.volume else old(p.volume))
      ensures playerId in players ==>
        players[playerId].State() == AvPlayer.SourceSetState(old(players[playerId].State()), src, AvPlayer.Current)
    {
      if playerId !in players {
        return PlayerNotFound;
      }
      players[playerId].SetSource(src);
      reply := Resolved(Null);
    }

    /** `play`: rejects an unknown id, otherwise forwards once. */
    method Play(playerId: string) returns (reply: Reply)
      requires Valid()
      modifies Target(playerId)
      ensures Valid() && players == old(players)
      ensures playerId !in players ==> reply == PlayerNotFound
      ensures playerId in players ==>
        && reply == Resolved(Null) && !players[playerId].paused
        && players[playerId].engineLog == old(players[playerId].engineLog)
             + (if players[playerId].player.Some? then [AvEngine.Play] else [])
      ensures playerId in players ==>
        var s := old(players[playerId].State());
        players[playerId].State() ==
          s.(paused := false, engineLog := s.engineLog + (if s.player.Some? then [AvEngine.Play] else []))
    {
      if playerId !in players {
        return PlayerNotFound;
      }
      players[playerId].Play();
      reply := Resolved(Null);
    }

    /** `pause`: rejects an unknown id, otherwise forwards once. */
    method Pause(playerId: string) returns (reply: Reply)
      requires Valid()
      modifies Target(playerId)
      ensures Valid() && players == old(players)
      ensures playerId !in players ==> reply == PlayerNotFound
      ensures playerId in players ==>
        && reply == Resolved(Null) && players[playerId].paused
        && players[playerId].engineLog == old(players[playerId].engineLog)
             + (if players[playerId].player.Some? then [AvEngine.Pause] else [])
      ensures playerId in players ==>
        var s := old(players[playerId].State());
        players[playerId].State() ==
          s.(paused := true, engineLog := s.engineLog + (if s.player.Some? then [AvEngine.Pause] else []))
    {
      if playerId !in players {
        return PlayerNotFound;
      }
      players[playerId].Pause();
      reply := Resolved(Null);
    }

    /** `setVolume`: rejects an unknown id, otherwise forwards once. */
    method SetVolume(playerId: string, volume: real) returns (reply: Reply)
      requires Valid()
      modifies Target(playerId)
      ensures Valid() && players == old(players)
      ensures playerId !in players ==> reply == PlayerNotFound
      ensures playerId in players ==>
        && reply == Resolved(Null) && players[playerId].volume == Some(volume)
        && players[playerId].engineLog == old(players[playerId].engineLog)
             + (if players[playerId].player.Some? then [AvEngine.SetVolume(volume)] else [])
      ensures playerId in players ==>
        var s := old(players[playerId].State());
        players[playerId].State() ==
          s.(volume := Some(volume), engineLog := s.engineLog + (if s.player.Some? then [AvEngine.SetVolume(volume)] else []))
    {
      if playerId !in players {
        return PlayerNotFound;
      }
      players[playerId].SetVolume(volume);
      reply := Resolved(Null);
    }

    /** `setLoop`: rejects an unknown id, otherwise forwards once. */
    method SetLoop(playerId: string, loop: bool) returns (reply: Reply)
      requires Valid()
      modifies Target(playerId)
      ensures Valid() && players == old(players)
      ensures playerId !in players ==> reply == PlayerNotFound
      ensures playerId in players ==> reply == Resolved(Null) && players[playerId].loop == loop
      ensures playerId in players ==> players[playerId].State() == old(players[playerId].State()).(loop := loop)
    {
      if playerId !in players {
        return PlayerNotFound;
      }
      players[playerId].SetLoop(loop);
      reply := Resolved(Null);
    }

    /** `seek`, with the current item's status and position: rejects an
        unknown id, otherwise forwards once, so the session seeks exactly as
        `SeekPlanFor` allows, and resolves nil whether or not it seeked. */
    method Seek(playerId: string, req: AvEngine.SeekDict, status: AvEngine.ItemStatus, position: real) returns (reply: Reply)
      requires Valid()
      modifies Target(playerId)
      ensures Valid() && players == old(players)
      ensures playerId !in players ==> reply == PlayerNotFound
      ensures playerId in players ==>
        var p := players[playerId];
        var plan := AvEngine.SeekPlanFor(p.player.Some?, req,
          if p.currentItem.Some? then Some(AvEngine.ItemSnapshot(status, position)) else None);
        && reply == Resolved(Null)
        && p.engineLog == old(p.engineLog) + (if plan.Some? then [AvEngine.SeekTo(plan.value.target, plan.value.tolerance)] else [])
        && p.pendingSeeks == old(p.pendingSeeks) + (if plan.Some? then [plan.value.target] else [])
      ensures playerId in players ==>
        var s := old(players[playerId].State());
        var plan := AvEngine.SeekPlanFor(s.player.Some?, req,
          if s.currentItem.Some? then Some(AvEngine.ItemSnapshot(status, position)) else None);
        players[playerId].State() ==
          s.(engineLog := s.engineLog + (if plan.Some? then [AvEngine.SeekTo(plan.value.target, plan.value.tolerance)] else []),
             pendingSeeks := s.pendingSeeks + (if plan.Some? then [plan.value.target] else []))
    {
      if playerId !in players {
        return PlayerNotFound;
      }
      players[playerId].Seek(req, status, position);
      reply := Resolved(Null);
    }
  }
}

=== FILE: js_events.dfy ===
/** The JavaScript side of event delivery, shared by src/player.ts and
    src/player.tsx: the table from native `eventType` codes to listener
    names, the filtering `onNativeEvent` applies, and the per-name listener
    lists that `on`, `off` and `emit` work on. */
module JsEvents {
  import opened Wrappers
  import opened Values
  import opened Events

  /** A listener function, by identity. */
  type Callback = nat

  /** One call `emit` makes: the listener and the data it is passed
      (`None` for `undefined`). */
  datatype Call = Call(listener: Callback, data: Option<Body>)

  /** A listener name and the payload `onNativeEvent` emits under it. */
  datatype Delivery = Delivery(name: string, payload: Body)

  /** The `switch` of `onNativeEvent`: the listener name for each of the
      eleven codes it knows; any other code has none. */
  function ListenerName(eventType: string): Option<string> {
    if eventType == "ON_LOAD" then Some("load")
    else if eventType == "ON_ERROR" then Some("error")
    else if eventType == "ON_BUFFERING" then Some("buffering")
    else if eventType == "ON_TIMED_METADATA" then Some("timedMetadata")
    else if eventType == "ON_STALLED" then Some("stalled")
    else if eventType == "ON_PLAY" then Some("play")
    else if eventType == "ON_PAUSE" then Some("pause")
    else if eventType == "ON_PROGRESS" then Some("progress")
    else if eventType == "ON_END" then Some("end")
    else if eventType == "ON_SEEK" then Some("seek")
    else if eventType == "ON_BECOME_NOISY" then Some("becomeNoisy")
    else None
  }

  /** Every code the native sides send reaches a listener name except
      `ON_EXTERNAL_PLAYER`, and different codes reach different names. */
  lemma ListenerNamesOfCodes(c: EventCode, c': EventCode)
    ensures ListenerName(CodeName(c)).Some? <==> c != OnExternalPlayer
    ensures ListenerName(CodeName(c)).Some? && ListenerName(CodeName(c)) == ListenerName(CodeName(c')) ==> c == c'
  {
  }

  /** `eventData` in `const { playerId, eventType, ...eventData } = data`. */
  function Payload(data: Body): (payload: Body)
    ensures payload.Keys == data.Keys - {"playerId", "eventType"}
    ensures forall k :: k in payload ==> payload[k] == data[k]
  {
    map k | k in data && k != "playerId" && k != "eventType" :: data[k]
  }

  /** `onNativeEvent(thisPlayerId, data)`: drops falsy data, a falsy
      `eventType`, an event for another player and an unknown code;
      otherwise emits the rest of the body under the code's listener name. */
  function Dispatch(thisPlayerId: string, data: Option<Body>): (d: Option<Delivery>)
    ensures d.Some? <==>
      && data.Some?
      && Get(data.value, "playerId") == Str(thisPlayerId)
      && Get(data.value, "eventType").Str?
      && ListenerName(Get(data.value, "eventType").s).Some?
    ensures d.Some? ==>
      && d.value.name == ListenerName(Get(data.value, "eventType").s).value
      && d.value.payload == Payload(data.value)
  {
    if data.None? then None
    else
      var eventType := Get(data.value, "eventType");
      if !Truthy(eventType) || Get(data.value, "playerId") != Str(thisPlayerId) then None
      else if eventType.Str? && ListenerName(eventType.s).Some? then
        Some(Delivery(ListenerName(eventType.s).value, Payload(data.value)))
      else None
  }

  /** End to end: an event a native session with id `playerId` sends
      reaches that player's listeners under the code's name with exactly
      the event's data, unless its code is `ON_EXTERNAL_PLAYER`; it never
      reaches the listeners of a player with another id. */
  lemma NativeEventDelivery(playerId: string, other: string, code: EventCode, data: Option<Body>)
    requires "playerId" !in DataKeys(data) && "eventType" !in DataKeys(data)
    ensures var d := Dispatch(playerId, Some(EventBody(Some(playerId), code, data)));
      && (d.Some? <==> code != OnExternalPlayer)
      && (d.Some? ==> d.value.name == ListenerName(CodeName(code)).value)
      && (d.Some? ==> d.value.payload == (if data.Some? then data.value else map[]))
    ensures other != playerId ==> Dispatch(other, Some(EventBody(Some(playerId), code, data))).None?
  {
    var body := EventBody(Some(playerId), code, data);
    ListenerNamesOfCodes(code, code);
    var expected: Body := if data.Some? then data.value else map[];
    assert Payload(body).Keys == expected.Keys;
  }

  /** The listeners registered under `name` (`undefined` reads as none). */
  function Listeners(table: map<string, seq<Callback>>, name: string): seq<Callback> {
    if name in table then table[name] else []
  }

  /** `Array.prototype.indexOf`: the first position of `x` in `s`, or -1. */
  function IndexOf(s: seq<Callback>, x: Callback): (r: int)
    ensures -1 <= r < |s|
    ensures r == -1 <==> x !in s
    ensures r >= 0 ==> s[r] == x && x !in s[..r]
  {
    if |s| == 0 then -1
    else if s[0] == x then 0
    else
      var i := IndexOf(s[1..], x);
      if i == -1 then -1 else i + 1
  }

  /** What `off` leaves of a list: the first occurrence of `x` spliced out,
      or the list itself when `x` is not in it. */
  function RemoveFirst(s: seq<Callback>, x: Callback): seq<Callback> {
    var i := IndexOf(s, x);
    if i == -1 then s else s[..i] + s[i + 1..]
  }

  /** `off` removes exactly one registration of `x` when there is one and
      keeps every other registration, in order. */
  lemma RemoveFirstSpec(s: seq<Callback>, x: Callback)
    ensures x !in s ==> RemoveFirst(s, x) == s
    ensures x in s ==> |RemoveFirst(s, x)| == |s| - 1
    ensures multiset(RemoveFirst(s, x)) == multiset(s) - multiset{x}
  {
    var i := IndexOf(s, x);
    if i >= 0 {
      assert RemoveFirst(s, x) == s[..i] + s[i + 1..];
      SpliceMultiset(s, i);
    }
  }

  /** Splicing out position `i` removes one copy of `s[i]` and nothing else. */
  lemma SpliceMultiset(s: seq<Callback>, i: nat)
    requires i < |s|
    ensures multiset(s[..i] + s[i + 1..]) == multiset(s) - multiset{s[i]}
  {
    assert s == s[..i] + [s[i]] + s[i + 1..];
  }

  /** `off` after `on` for a listener not registered before restores the
      list; for one registered before, it removes the earlier registration
      instead, so the list is not restored. */
  lemma OffUndoesOn(s: seq<Callback>, x: Callback)
    ensures x !in s ==> RemoveFirst(s + [x], x) == s
    ensures x in s ==> RemoveFirst(s + [x], x) == RemoveFirst(s, x) + [x]
  {
    var i := IndexOf(s + [x], x);
    if x in s {
      var j := IndexOf(s, x);
      assert (s + [x])[..j] == s[..j];
      FirstIndexUnique(s + [x], x, i, j);
      assert (s + [x])[i + 1..] == s[j + 1..] + [x];
    } else {
      FirstIndexUnique(s + [x], x, i, |s|);
      assert (s + [x])[..i] == s;
    }
  }

  /** Two first positions of `x` in `t` are the same position. */
  lemma FirstIndexUnique(t: seq<Callback>, x: Callback, i: nat, j: nat)
    requires i < |t| && t[i] == x && x !in t[..i]
    requires j < |t| && t[j] == x && x !in t[..j]
    ensures i == j
  {
    if i < j {
      assert false;
    } else if j < i {
      assert false;
    }
  }

  /** The calls `listeners.forEach(listener => listener(data))` makes. */
  function Deliveries(listeners: seq<Callback>, data: Option<Body>): (calls: seq<Call>)
    ensures |calls| == |listeners|
    ensures forall i :: 0 <= i < |calls| ==> calls[i] == Call(listeners[i], data)
  {
    if |listeners| == 0 then [] else [Call(listeners[0], data)] + Deliveries(listeners[1..], data)
  }

  /** Calling one more listener extends the calls by that one call. */
  lemma DeliveriesStep(listeners: seq<Callback>, i: nat, data: Option<Body>)
    requires i < |listeners|
    ensures Deliveries(listeners[..i + 1], data) == Deliveries(listeners[..i], data) + [Call(listeners[i], data)]
  {
    var longer := Deliveries(listeners[..i + 1], data);
    var shorter := Deliveries(listeners[..i], data) + [Call(listeners[i], data)];
    assert forall k :: 0 <= k < |longer| ==> longer[k] == shorter[k];
  }
}

=== FILE: js_module.dfy ===
/** The native module as the JavaScript wrappers see it (`Module` from
    src/module.ts): the calls they make on it, and the method names the
    two native registries export. */
module JsModule {
  import opened Wrappers
  import opened Values
  import opened SourceEquality

  /** A call a wrapper makes on the native module. */
  datatype ModuleCall =
    | CreatePlayer(requestedId: Option<string>)
    | DisposePlayer(playerId: string)
    | SetSource(playerId: string, source: Source)
    | Play(playerId: string)
    | Pause(playerId: string)
    | SetVolume(playerId: string, volume: real)
    | SetLoop(playerId: string, loop: bool)
    | Seek(playerId: string, seek: Body)

  /** The bridged methods of android/src/main/java/com/playback/PlaybackModule.java. */
  const AndroidMethods: set<string> :=
    {"createPlayer", "disposePlayer", "setSource", "play", "pause", "setLoop",
     "setVolume", "seek", "fadeVolume", "addListener", "removeListeners"}

  /** The bridged methods of ios/Playback.swift. */
  const IosMethods: set<string> :=
    {"createPlayer", "disposePlayer", "setSource", "play", "pause", "setVolume",
     "setLoop", "seek"}

  /** Whether `Module[name]` is a function on both platforms; calling
      anything else throws a `TypeError`. */
  predicate Exported(name: string) {
    name in AndroidMethods && name in IosMethods
  }

  /** The wrappers' `disponse` calls `Module.disponsePlayer`, which neither
      registry exports; the registries' dispose method is `disposePlayer`. */
  lemma DisponseNameNotExported()
    ensures !Exported("disponsePlayer") && Exported("disposePlayer")
  {
  }
}

=== FILE: js_player.dfy ===
/** The JavaScript player wrapper of src/player.ts: guarded commands that
    cache the source, volume and loop flag and forward to the native
    module, and the per-name listener lists native events are dispatched
    to.

    Arguments arrive untyped (`typeof` checks guard them), so commands
    take bridge `Value`s or `Option`s (`None` for a falsy argument). Calls
    on the native module go to a ghost log; the calls `emit` makes on
    listeners are appended to `called`. */
module JsPlayer {
  import opened Wrappers
  import opened Values
  import opened SourceEquality
  import opened JsEvents
  import opened JsModule

  class Player {
    var playerId: string
    var source: Option<Source>
    var volume: real
    var loop: bool
    var eventListeners: map<string, seq<Callback>>
    /** Whether the `playerEvent` subscription is held. */
    var subscribed: bool
    ghost var moduleCalls: seq<ModuleCall>
    var called: seq<Call>

    /** The constructor, with the id `generateId` produced; the `mount` it
        starts is the separate step `Mount`. */
    constructor (generatedId: string)
      ensures playerId == generatedId && source.None? && volume == 1.0 && !loop
      ensures eventListeners == map[] && !subscribed && moduleCalls == [] && called == []
    {
      playerId := generatedId;
      source := None;
      volume := 1.0;
      loop := false;
      eventListeners := map[];
      subscribed := false;
      moduleCalls := [];
      called := [];
    }

    /** `getSource`. */
    function GetSource(): Option<Source>
      reads this
    {
      source
    }

    /** `getVolume`. */
    function GetVolume(): real
      reads this
    {
      volume
    }

    /** `getLoop`. */
    function GetLoop(): bool
      reads this
    {
      loop
    }

    /** `mount`, once `createPlayer` has settled (`created` says whether it
        resolved): asks the native side for a session under the id (a new
        one if it is empty); on success subscribes to native events and
        emits `created`, on failure clears the id, which disables every
        command. */
    method Mount(generatedId: string, created: bool)
      modifies this
      ensures var id := if old(playerId) == "" then generatedId else old(playerId);
        && moduleCalls == old(moduleCalls) + [CreatePlayer(Some(id))]
        && (created ==> playerId == id && subscribed && called == old(called) + Deliveries(Listeners(eventListeners, "created"), None))
        && (!created ==> playerId == "" && subscribed == old(subscribed) && called == old(called))
      ensures unchanged(this`source, this`volume, this`loop, this`eventListeners)
    {
      if playerId == "" {
        playerId := generatedId;
      }
      moduleCalls := moduleCalls + [CreatePlayer(Some(playerId))];
      if created {
        subscribed := true;
        Emit("created", None);
      } else {
        playerId := "";
      }
    }

    /** `disponse` as written: drops the subscription, then calls
        `Module.disponsePlayer`, which neither native module exports; the
        `TypeError` is swallowed and no session is disposed. */
    method Disponse()
      modifies this
      ensures !subscribed && moduleCalls == old(moduleCalls)
      ensures unchanged(this`playerId, this`source, this`volume, this`loop, this`eventListeners, this`called)
    {
      subscribed := false;
      // `Module.disponsePlayer` is undefined (see `DisponseNameNotExported`):
      // the call throws before reaching the native side.
    }

    /** `disponse` calling the native `disposePlayer`, as its name and the
        registries' API intend: the session of this id is disposed. */
    method DisponseIntended()
      modifies this
      ensures !subscribed && moduleCalls == old(moduleCalls) + [DisposePlayer(playerId)]
      ensures unchanged(this`playerId, this`source, this`volume, this`loop, this`eventListeners, this`called)
    {
      subscribed := false;
      moduleCalls := moduleCalls + [DisposePlayer(playerId)];
    }

    /** `setSource`: ignored without an id or source; otherwise caches a
        copy, which `getSource` then returns equal to the argument, and
        forwards it. */
    method SetSource(src: Option<Source>)
      modifies this
      ensures playerId == "" || src.None? ==> unchanged(this)
      ensures playerId != "" && src.Some? ==>
        && GetSource() == src && SourceEqual(GetSource(), src)
        && moduleCalls == old(moduleCalls) + [ModuleCall.SetSource(playerId, src.value)]
      ensures unchanged(this`playerId, this`volume, this`loop, this`eventListeners, this`subscribed, this`called)
    {
      if playerId == "" || src.None? {
        return;
      }
      source := Some(src.value);
      moduleCalls := moduleCalls + [ModuleCall.SetSource(playerId, src.value)];
    }

    /** `play`: forwarded only with an id. */
    method Play()
      modifies this
      ensures moduleCalls == old(moduleCalls) + (if playerId != "" then [ModuleCall.Play(playerId)] else [])
      ensures unchanged(this`playerId, this`source, this`volume, this`loop, this`eventListeners, this`subscribed, this`called)
    {
      if playerId == "" {
        return;
      }
      moduleCalls := moduleCalls + [ModuleCall.Play(playerId)];
    }

    /** `pause`: forwarded only with an id. */
    method Pause()
      modifies this
      ensures moduleCalls == old(moduleCalls) + (if playerId != "" then [ModuleCall.Pause(playerId)] else [])
      ensures unchanged(this`playerId, this`source, this`volume, this`loop, this`eventListeners, this`subscribed, this`called)
    {
      if playerId == "" {
        return;
      }
      moduleCalls := moduleCalls + [ModuleCall.Pause(playerId)];
    }

    /** `setVolume`: ignored without an id or for a non-number; otherwise
        cached, so `getVolume` returns it, and forwarded. */
    method SetVolume(v: Value)
      modifies this
      ensures playerId == "" || !v.Num? ==> unchanged(this)
      ensures playerId != "" && v.Num? ==>
        && GetVolume() == v.n
        && moduleCalls == old(moduleCalls) + [ModuleCall.SetVolume(playerId, v.n)]
      ensures unchanged(this`playerId, this`source, this`loop, this`eventListeners, this`subscribed, this`called)
    {
      if playerId == "" || !v.Num? {
        return;
      }
      volume := v.n;
      moduleCalls := moduleCalls + [ModuleCall.SetVolume(playerId, v.n)];
    }

    /** `setLoop`: ignored without an id or for a non-boolean; otherwise
        cached, so `getLoop` returns it, and forwarded. */
    method SetLoop(l: Value)
      modifies this
      ensures playerId == "" || !l.Bool? ==> unchanged(this)
      ensures playerId != "" && l.Bool? ==>
        && GetLoop() == l.b
        && moduleCalls == old(moduleCalls) + [ModuleCall.SetLoop(playerId, l.b)]
      ensures unchanged(this`playerId, this`source, this`volume, this`eventListeners, this`subscribed, this`called)
    {
      if playerId == "" || !l.Bool? {
        return;
      }
      loop := l.b;
      moduleCalls := moduleCalls + [ModuleCall.SetLoop(playerId, l.b)];
    }

    /** `seek`: forwarded only with an id and an argument whose `time` is a
        number. */
    method Seek(time: Option<Body>)
      modifies this
      ensures moduleCalls == old(moduleCalls) +
        (if playerId != "" && time.Some? && Get(time.value, "time").Num? then [ModuleCall.Seek(playerId, time.value)] else [])
      ensures unchanged(this`playerId, this`source, this`volume, this`loop, this`eventListeners, this`subscribed, this`called)
    {
      if playerId == "" || time.None? || !Get(time.value, "time").Num? {
        return;
      }
      moduleCalls := moduleCalls + [ModuleCall.Seek(playerId, time.value)];
    }

    /** `onNativeEvent`: emits what `Dispatch` delivers, if anything. */
    method OnNativeEvent(thisPlayerId: string, data: Option<Body>)
      modifies this
      ensures var d := Dispatch(thisPlayerId, data);
        called == old(called) + (if d.Some? then Deliveries(Listeners(eventListeners, d.value.name), Some(d.value.payload)) else [])
      ensures unchanged(this`playerId, this`source, this`volume, this`loop, this`eventListeners, this`subscribed)
      ensures moduleCalls == old(moduleCalls)
    {
      var d := Dispatch(thisPlayerId, data);
      if d.Some? {
        Emit(d.value.name, Some(d.value.payload));
      }
    }

    /** The `playerEvent` subscription's callback: while the subscription
        is held, a native event goes to `onNativeEvent` with the wrapper's
        current id; once `disponse` has dropped it, no native event reaches
        the listeners. */
    method DeliverNativeEvent(data: Option<Body>)
      modifies this
      ensures !subscribed ==> called == old(called)
      ensures subscribed ==>
        var d := Dispatch(playerId, data);
        called == old(called) + (if d.Some? then Deliveries(Listeners(eventListeners, d.value.name), Some(d.value.payload)) else [])
      ensures unchanged(this`playerId, this`source, this`volume, this`loop, this`eventListeners, this`subscribed)
      ensures moduleCalls == old(moduleCalls)
    {
      if subscribed {
        OnNativeEvent(playerId, data);
      }
    }

    /** `on`: appends the callback to the list of that name, creating the
        list if needed. */
    method On(name: string, callback: Callback)
      modifies this
      ensures eventListeners == old(eventListeners)[name := Listeners(old(eventListeners), name) + [callback]]
      ensures unchanged(this`playerId, this`source, this`volume, this`loop, this`subscribed, this`called)
      ensures moduleCalls == old(moduleCalls)
    {
      if name !in eventListeners {
        eventListeners := eventListeners[name := []];
      }
      eventListeners := eventListeners[name := eventListeners[name] + [callback]];
    }

    /** `off`: removes the first registration of the callback under that
        name, if there is one; a name without a list gets none. */
    method Off(name: string, callback: Callback)
      modifies this
      ensures eventListeners == if name in old(eventListeners)
        then old(eventListeners)[name := RemoveFirst(old(eventListeners)[name], callback)]
        else old(eventListeners)
      ensures unchanged(this`playerId, this`source, this`volume, this`loop, this`subscribed, this`called)
      ensures moduleCalls == old(moduleCalls)
    {
      if name in eventListeners {
        var listeners := eventListeners[name];
        var index := IndexOf(listeners, callback);
        if index != -1 {
          eventListeners := eventListeners[name := listeners[..index] + listeners[index + 1..]];
        }
      }
    }

    /** `emit`: calls the listeners of that name in registration order with
        the data; nothing without a list. */
    method Emit(name: string, data: Option<Body>)
      modifies this
      ensures called == old(called) + Deliveries(Listeners(eventListeners, name), data)
      ensures unchanged(this`playerId, this`source, this`volume, this`loop, this`eventListeners, this`subscribed)
      ensures moduleCalls == old(moduleCalls)
    {
      if name in eventListeners {
        var listeners := eventListeners[name];
        var i := 0;
        while i < |listeners|
          invariant 0 <= i <= |listeners|
          invariant called == old(called) + Deliveries(listeners[..i], data)
          invariant unchanged(this`playerId, this`source, this`volume, this`loop, this`eventListeners, this`subscribed)
          invariant moduleCalls == old(moduleCalls)
        {
          DeliveriesStep(listeners, i, data);
          called := called + [Call(listeners[i], data)];
          i := i + 1;
        }
        assert listeners[..i] == listeners;
      }
    }
  }
}

=== FILE: legacy_js_player.dfy ===
/** The older JavaScript player wrapper of src/player.tsx: guarded
    commands forwarded to the native module without caching anything, and
    the same event dispatch and listener lists as src/player.ts. Its
    session id is the one `createPlayer` resolves with. */
module LegacyJsPlayer {
  import opened Wrappers
  import opened Values
  import opened SourceEquality
  import opened JsEvents
  import opened JsModule

  class Player {
    var playerId: string
    var eventListeners: map<string, seq<Callback>>
    /** Whether the `playerEvent` subscription is held. */
    var subscribed: bool
    ghost var moduleCalls: seq<ModuleCall>
    var called: seq<Call>

    /** The constructor; the `mount` it starts is the separate step `Mount`. */
    constructor ()
      ensures playerId == "" && eventListeners == map[] && !subscribed && moduleCalls == [] && called == []
    {
      playerId := "";
      eventListeners := map[];
      subscribed := false;
      moduleCalls := [];
      called := [];
    }

    /** `mount`, once `createPlayer()` has settled with `created` (`None`
        when it rejected): the id is the resolved value, after which the
        wrapper subscribes to native events and emits `created`; a rejection
        leaves the id empty, which disables every command. */
    method Mount(created: Option<string>)
      modifies this
      ensures moduleCalls == old(moduleCalls) + [CreatePlayer(None)]
      ensures created.Some? ==>
        && playerId == created.value && subscribed
        && called == old(called) + Deliveries(Listeners(eventListeners, "created"), None)
      ensures created.None? ==> playerId == "" && subscribed == old(subscribed) && called == old(called)
      ensures unchanged(this`eventListeners)
    {
      moduleCalls := moduleCalls + [CreatePlayer(None)];
      if created.Some? {
        playerId := created.value;
        subscribed := true;
        Emit("created", None);
      } else {
        playerId := "";
      }
    }

    /** `disponse` as written: drops the subscription, then calls
        `Module.disponsePlayer`, which neither native module exports; the
        `TypeError` is swallowed and no session is disposed. */
    method Disponse()
      modifies this
      ensures !subscribed && moduleCalls == old(moduleCalls)
      ensures unchanged(this`playerId, this`eventListeners, this`called)
    {
      subscribed := false;
      // `Module.disponsePlayer` is undefined (see `DisponseNameNotExported`):
      // the call throws before reaching the native side.
    }

    /** `setSource`: forwarded only with an id and a source. */
    method SetSource(src: Option<Source>)
      modifies this
      ensures moduleCalls == old(moduleCalls) +
        (if playerId != "" && src.Some? then [ModuleCall.SetSource(playerId, src.value)] else [])
      ensures unchanged(this`playerId, this`eventListeners, this`subscribed, this`called)
    {
      if playerId == "" || src.None? {
        return;
      }
      moduleCalls := moduleCalls + [ModuleCall.SetSource(playerId, src.value)];
    }

    /** `play`: forwarded only with an id. */
    method Play()
      modifies this
      ensures moduleCalls == old(moduleCalls) + (if playerId != "" then [ModuleCall.Play(playerId)] else [])
      ensures unchanged(this`playerId, this`eventListeners, this`subscribed, this`called)
    {
      if playerId == "" {
        return;
      }
      moduleCalls := moduleCalls + [ModuleCall.Play(playerId)];
    }

    /** `pause`: forwarded only with an id. */
    method Pause()
      modifies this
      ensures moduleCalls == old(moduleCalls) + (if playerId != "" then [ModuleCall.Pause(playerId)] else [])
      ensures unchanged(this`playerId, this`eventListeners, this`subscribed, this`called)
    {
      if playerId == "" {
        return;
      }
      moduleCalls := moduleCalls + [ModuleCall.Pause(playerId)];
    }

    /** `setVolume`: forwarded only with an id and a number. */
    method SetVolume(v: Value)
      modifies this
      ensures moduleCalls == old(moduleCalls) +
        (if playerId != "" && v.Num? then [ModuleCall.SetVolume(playerId, v.n)] else [])
      ensures unchanged(this`playerId, this`eventListeners, this`subscribed, this`called)
    {
      if playerId == "" || !v.Num? {
        return;
      }
      moduleCalls := moduleCalls + [ModuleCall.SetVolume(playerId, v.n)];
    }

    /** `seek`: forwarded only with an id and an argument whose `time` is a
        number. */
    method Seek(time: Option<Body>)
      modifies this
      ensures moduleCalls == old(moduleCalls) +
        (if playerId != "" && time.Some? && Get(time.value, "time").Num? then [ModuleCall.Seek(playerId, time.value)] else [])
      ensures unchanged(this`playerId, this`eventListeners, this`subscribed, this`called)
    {
      if playerId == "" || time.None? || !Get(time.value, "time").Num? {
        return;
      }
      moduleCalls := moduleCalls + [ModuleCall.Seek(playerId, time.value)];
    }

    /** `onNativeEvent`: emits what `Dispatch` delivers, if anything. */
    method OnNativeEvent(thisPlayerId: string, data: Option<Body>)
      modifies this
      ensures var d := Dispatch(thisPlayerId, data);
        called == old(called) + (if d.Some? then Deliveries(Listeners(eventListeners, d.value.name), Some(d.value.payload)) else [])
      ensures unchanged(this`playerId, this`eventListeners, this`subscribed)
      ensures moduleCalls == old(moduleCalls)
    {
      var d := Dispatch(thisPlayerId, data);
      if d.Some? {
        Emit(d.value.name, Some(d.value.payload));
      }
    }

    /** The `playerEvent` subscription's callback: while the subscription
        is held, a native event goes to `onNativeEvent` with the wrapper's
        current id; once `disponse` has dropped it, no native event reaches
        the listeners. */
    method DeliverNativeEvent(data: Option<Body>)
      modifies this
      ensures !subscribed ==> called == old(called)
      ensures subscribed ==>
        var d := Dispatch(playerId, data);
        called == old(called) + (if d.Some? then Deliveries(Listeners(eventListeners, d.value.name), Some(d.value.payload)) else [])
      ensures unchanged(this`playerId, this`eventListeners, this`subscribed)
      ensures moduleCalls == old(moduleCalls)
    {
      if subscribed {
        OnNativeEvent(playerId, data);
      }
    }

    /** `on`: appends the callback to the list of that name, creating the
        list if needed. */
    method On(name: string, callback: Callback)
      modifies this
      ensures eventListeners == old(eventListeners)[name := Listeners(old(eventListeners), name) + [callback]]
      ensures unchanged(this`playerId, this`subscribed, this`called)
      ensures moduleCalls == old(moduleCalls)
    {
      if name !in eventListeners {
        eventListeners := eventListeners[name := []];
      }
      eventListeners := eventListeners[name := eventListeners[name] + [callback]];
    }

    /** `off`: removes the first registration of the callback under that
        name, if there is one; a name without a list gets none. */
    method Off(name: string, callback: Callback)
      modifies this
      ensures eventListeners == if name in old(eventListeners)
        then old(eventListeners)[name := RemoveFirst(old(eventListeners)[name], callback)]
        else old(eventListeners)
      ensures unchanged(this`playerId, this`subscribed, this`called)
      ensures moduleCalls == old(moduleCalls)
    {
      if name in eventListeners {
        var listeners := eventListeners[name];
        var index := IndexOf(listeners, callback);
        if index != -1 {
          eventListeners := eventListeners[name := listeners[..index] + listeners[index + 1..]];
        }
      }
    }

    /** `emit`: calls the listeners of that name in registration order with
        the data; nothing without a list. */
    method Emit(name: string, data: Option<Body>)
      modifies this
      ensures called == old(called) + Deliveries(Listeners(eventListeners, name), data)
      ensures unchanged(this`playerId, this`eventListeners, this`subscribed)
      ensures moduleCalls == old(moduleCalls)
    {
      if name in eventListeners {
        var listeners := eventListeners[name];
        var i := 0;
        while i < |listeners|
          invariant 0 <= i <= |listeners|
          invariant called == old(called) + Deliveries(listeners[..i], data)
          invariant unchanged(this`playerId, this`eventListeners, this`subscribed)
          invariant moduleCalls == old(moduleCalls)
        {
          DeliveriesStep(listeners, i, data);
          called := called + [Call(listeners[i], data)];
          i := i + 1;
        }
        assert listeners[..i] == listeners;
      }
    }
  }
}

=== FILE: player_observer.dfy ===
/** The observation bookkeeping of an iOS session: which engine and item are
    observed through key-value observation, the periodic time observer, and
    the handler's entries in the notification center. */
module Observer {
  import opened Wrappers
  import opened AvEngine

  /** The progress cadence, in milliseconds. */
  const ProgressUpdateIntervalMs: real := 250.0

  /** The interval handed to the periodic time observer, in seconds. */
  function ProgressIntervalSeconds(): (s: real)
    ensures s == 0.25
  {
    ProgressUpdateIntervalMs / 1000.0
  }

  /** A call on an engine's periodic time observers: adding one with the
      interval it fires at (seconds), or removing the one added earlier. */
  datatype TimeObserverCall =
    | AddPeriodicTimeObserver(engine: EngineId, intervalSeconds: real)
    | RemoveTimeObserver(engine: EngineId)

  /** The removal `removePlayerTimeObserver` makes for token `t`, if any. */
  function TokenRemoval(t: Option<EngineId>): seq<TimeObserverCall> {
    if t.Some? then [RemoveTimeObserver(t.value)] else []
  }

  datatype NotificationName = DidPlayToEndTime | PlaybackStalled | RouteChange

  /** One entry of the notification center for the handler: a name and the
      sender it listens to (`None`: any sender). */
  datatype Registration = Registration(name: NotificationName, sender: Option<ItemId>)

  /** Whether `removeObserver(handler, name:, object:)` removes entry `r`:
      the name must match and, unless `object` is nil, the sender too. */
  predicate Matches(r: Registration, name: NotificationName, sender: Option<ItemId>) {
    r.name == name && (sender.None? || r.sender == sender)
  }

  /** The handler's entries after `removeObserver(handler, name:, object:)`:
      the matching ones are gone and the others kept in order. */
  function RemoveMatching(regs: seq<Registration>, name: NotificationName, sender: Option<ItemId>): (r: seq<Registration>)
    ensures |r| <= |regs|
    ensures forall x :: x in r ==> x in regs && !Matches(x, name, sender)
    ensures forall x :: x in regs && !Matches(x, name, sender) ==> x in r
  {
    if regs == [] then []
    else (if Matches(regs[0], name, sender) then [] else [regs[0]]) + RemoveMatching(regs[1..], name, sender)
  }

  /** A remove-then-add pair of `attachPlayerEventListeners`. */
  function Reregister(regs: seq<Registration>, reg: Registration): seq<Registration> {
    RemoveMatching(regs, reg.name, reg.sender) + [reg]
  }

  function EndRegistration(currentItem: Option<ItemId>): Registration {
    Registration(DidPlayToEndTime, currentItem)
  }

  const StalledRegistration := Registration(PlaybackStalled, None)
  const RouteRegistration := Registration(RouteChange, None)

  /** The handler methods a notification can be routed to. */
  datatype Selector = HandlePlayerItemDidReachEnd | HandlePlaybackStalled | HandleAudioRouteChange | PlayerItemDidReachEnd

  /** The routing `attachPlayerEventListeners` installs: the end-of-item
      notification goes to `handlePlayerItemDidReachEnd`, the handler that
      only reports a failure carried in the notification; no notification
      is routed to `playerItemDidReachEnd`. */
  function SelectorFor(name: NotificationName): (sel: Selector)
    ensures sel != PlayerItemDidReachEnd
  {
    match name
    case DidPlayToEndTime => HandlePlayerItemDidReachEnd
    case PlaybackStalled => HandlePlaybackStalled
    case RouteChange => HandleAudioRouteChange
  }

  /** A posted notification: its name, the item it is about, the failure
      its user info carries and the route-change reason it carries. */
  datatype Notification = Notification(name: NotificationName, sender: Option<ItemId>, failure: Option<NsError>, reason: Option<nat>)

  /** Whether entry `r` receives notification `n`: same name, and either
      the entry listens to any sender or to this one. */
  predicate Receives(r: Registration, n: Notification) {
    r.name == n.name && (r.sender.None? || r.sender == n.sender)
  }

  /** How many of the entries receive `n`; the notification center calls
      the selector of each of them, so a handler runs that many times. */
  function Receivers(regs: seq<Registration>, n: Notification): nat {
    if regs == [] then 0
    else Receivers(regs[..|regs| - 1], n) + (if Receives(regs[|regs| - 1], n) then 1 else 0)
  }

  /** No handler runs exactly when no entry receives the notification, and
      never more often than there are entries. */
  lemma {:induction false} ReceiversBounds(regs: seq<Registration>, n: Notification)
    ensures Receivers(regs, n) <= |regs|
    ensures Receivers(regs, n) == 0 <==> forall r :: r in regs ==> !Receives(r, n)
    decreases |regs|
  {
    if regs != [] {
      var front := regs[..|regs| - 1];
      ReceiversBounds(front, n);
      assert regs == front + [regs[|regs| - 1]];
    }
  }

  /** An end-of-item entry for any sender and one for item `k` can both be
      held (attaching while the observer has no player, then again with an
      item); a failure on item `k` then reaches the handler twice. */
  lemma BothEndEntriesReceive(k: ItemId, failure: Option<NsError>, reason: Option<nat>)
    ensures Receivers([EndRegistration(None), EndRegistration(Some(k))], Notification(DidPlayToEndTime, Some(k), failure, reason)) == 2
  {
    var n := Notification(DidPlayToEndTime, Some(k), failure, reason);
    var regs := [EndRegistration(None), EndRegistration(Some(k))];
    assert regs[..|regs| - 1] == [EndRegistration(None)];
    assert [EndRegistration(None)][..0] == [];
    assert Receivers([EndRegistration(None)], n) == 1;
  }

  /** Looking at one more entry adds one handler run exactly when that
      entry receives the notification. */
  lemma ReceiversStep(regs: seq<Registration>, i: nat, n: Notification)
    requires i < |regs|
    ensures Receivers(regs[..i + 1], n) == Receivers(regs[..i], n) + (if Receives(regs[i], n) then 1 else 0)
  {
    assert regs[..i + 1][..i] == regs[..i];
  }

  /** The handler's entries after `attachPlayerEventListeners` when the
      player's current item is `currentItem`. */
  function Attached(regs: seq<Registration>, currentItem: Option<ItemId>): seq<Registration> {
    Reregister(Reregister(Reregister(regs, EndRegistration(currentItem)), StalledRegistration), RouteRegistration)
  }

  lemma {:induction false} RemoveMatchingConcat(a: seq<Registration>, b: seq<Registration>, name: NotificationName, sender: Option<ItemId>)
    ensures RemoveMatching(a + b, name, sender) == RemoveMatching(a, name, sender) + RemoveMatching(b, name, sender)
  {
    if a == [] {
      assert a + b == b;
    } else {
      assert (a + b)[1..] == a[1..] + b;
      RemoveMatchingConcat(a[1..], b, name, sender);
    }
  }

  lemma {:induction false} RemoveMatchingNothing(regs: seq<Registration>, name: NotificationName, sender: Option<ItemId>)
    requires forall x :: x in regs ==> !Matches(x, name, sender)
    ensures RemoveMatching(regs, name, sender) == regs
  {
    if regs != [] {
      RemoveMatchingNothing(regs[1..], name, sender);
    }
  }

  lemma RemoveMatchingSingle(x: Registration, name: NotificationName, sender: Option<ItemId>)
    ensures RemoveMatching([x], name, sender) == if Matches(x, name, sender) then [] else [x]
  {
    assert [x][1..] == [];
  }

  /** One remove-then-add pair appended after entries that the removal does
      not match. */
  lemma ReregisterAfter(front: seq<Registration>, kept: seq<Registration>, reg: Registration)
    requires forall x :: x in kept ==> !Matches(x, reg.name, reg.sender)
    ensures Reregister(front + kept, reg) == RemoveMatching(front, reg.name, reg.sender) + (kept + [reg])
  {
    RemoveMatchingConcat(front, kept, reg.name, reg.sender);
    RemoveMatchingNothing(kept, reg.name, reg.sender);
  }

  /** The handler's entries after `attachPlayerEventListeners` are those it
      had, minus every entry one of the three removals matches, followed by
      exactly the three new registrations. */
  lemma AttachedShape(regs: seq<Registration>, currentItem: Option<ItemId>)
    ensures Attached(regs, currentItem) == Stripped(regs, currentItem) + [EndRegistration(currentItem), StalledRegistration, RouteRegistration]
  {
    var e, s, rc := EndRegistration(currentItem), StalledRegistration, RouteRegistration;
    var r1 := RemoveMatching(regs, DidPlayToEndTime, currentItem);
    var r2 := RemoveMatching(r1, PlaybackStalled, None);
    ReregisterAfter(r1, [e], s);
    assert [e] + [s] == [e, s];
    ReregisterAfter(r2, [e, s], rc);
    assert [e, s] + [rc] == [e, s, rc];
  }

  /** The handler's entries after the three removals alone. */
  function Stripped(regs: seq<Registration>, currentItem: Option<ItemId>): seq<Registration> {
    RemoveMatching(RemoveMatching(RemoveMatching(regs, DidPlayToEndTime, currentItem), PlaybackStalled, None), RouteChange, None)
  }

  /** After `attachPlayerEventListeners` the handler holds exactly one
      "did play to end" entry for the current item, and exactly one entry
      (for any sender) for "playback stalled" and for "route change". */
  lemma AttachedLeavesOneOfEach(regs: seq<Registration>, currentItem: Option<ItemId>)
    ensures multiset(Attached(regs, currentItem))[EndRegistration(currentItem)] == 1
    ensures forall x :: x in Attached(regs, currentItem) && x.name == PlaybackStalled ==> x == StalledRegistration
    ensures multiset(Attached(regs, currentItem))[StalledRegistration] == 1
    ensures forall x :: x in Attached(regs, currentItem) && x.name == RouteChange ==> x == RouteRegistration
    ensures multiset(Attached(regs, currentItem))[RouteRegistration] == 1
  {
    AttachedShape(regs, currentItem);
    StrippedMatchesNothing(regs, currentItem);
    OneOfEachAfterKept(Stripped(regs, currentItem), EndRegistration(currentItem), Attached(regs, currentItem));
  }

  lemma OneOfEachAfterKept(kept: seq<Registration>, e: Registration, a: seq<Registration>)
    requires e.name == DidPlayToEndTime
    requires a == kept + [e, StalledRegistration, RouteRegistration]
    requires forall x :: x in kept ==> x.name != PlaybackStalled && x.name != RouteChange && x != e
    ensures multiset(a)[e] == 1
    ensures forall x :: x in a && x.name == PlaybackStalled ==> x == StalledRegistration
    ensures multiset(a)[StalledRegistration] == 1
    ensures forall x :: x in a && x.name == RouteChange ==> x == RouteRegistration
    ensures multiset(a)[RouteRegistration] == 1
  {
    var tail := [e, StalledRegistration, RouteRegistration];
    assert multiset(a) == multiset(kept) + multiset(tail);
    assert e !in kept && StalledRegistration !in kept && RouteRegistration !in kept;
  }

  lemma StrippedMatchesNothing(regs: seq<Registration>, currentItem: Option<ItemId>)
    ensures forall x :: x in Stripped(regs, currentItem) ==>
      !Matches(x, DidPlayToEndTime, currentItem) && !Matches(x, PlaybackStalled, None) && !Matches(x, RouteChange, None)
  {
    var r1 := RemoveMatching(regs, DidPlayToEndTime, currentItem);
    var r2 := RemoveMatching(r1, PlaybackStalled, None);
    assert forall x :: x in r2 ==> x in r1;
  }

  lemma RemoveMatchingCons(x: Registration, rest: seq<Registration>, name: NotificationName, sender: Option<ItemId>)
    ensures RemoveMatching([x] + rest, name, sender) == (if Matches(x, name, sender) then [] else [x]) + RemoveMatching(rest, name, sender)
  {
    assert ([x] + rest)[1..] == rest;
  }

  /** Removing after entries the removal does not match only affects the tail. */
  lemma RemoveMatchingAfterKept(kept: seq<Registration>, tail: seq<Registration>, name: NotificationName, sender: Option<ItemId>)
    requires forall x :: x in kept ==> !Matches(x, name, sender)
    ensures RemoveMatching(kept + tail, name, sender) == kept + RemoveMatching(tail, name, sender)
  {
    RemoveMatchingConcat(kept, tail, name, sender);
    RemoveMatchingNothing(kept, name, sender);
  }

  lemma EndRemovalOfNewEntries(currentItem: Option<ItemId>)
    ensures RemoveMatching([EndRegistration(currentItem), StalledRegistration, RouteRegistration], DidPlayToEndTime, currentItem)
         == [StalledRegistration, RouteRegistration]
  {
    var e, s, rc := EndRegistration(currentItem), StalledRegistration, RouteRegistration;
    RemoveMatchingCons(e, [s, rc], DidPlayToEndTime, currentItem);
    assert [e] + [s, rc] == [e, s, rc];
    RemoveMatchingCons(s, [rc], DidPlayToEndTime, currentItem);
    assert [s] + [rc] == [s, rc];
    RemoveMatchingSingle(rc, DidPlayToEndTime, currentItem);
  }

  lemma StalledRemovalOfNewEntries()
    ensures RemoveMatching([StalledRegistration, RouteRegistration], PlaybackStalled, None) == [RouteRegistration]
  {
    RemoveMatchingCons(StalledRegistration, [RouteRegistration], PlaybackStalled, None);
    assert [StalledRegistration] + [RouteRegistration] == [StalledRegistration, RouteRegistration];
    RemoveMatchingSingle(RouteRegistration, PlaybackStalled, None);
  }

  /** Stripping the entries an attach would add, after entries that the
      three removals do not match, gives back those entries. */
  lemma StrippedAfterAttach(kept: seq<Registration>, currentItem: Option<ItemId>)
    requires forall x :: x in kept ==>
      !Matches(x, DidPlayToEndTime, currentItem) && !Matches(x, PlaybackStalled, None) && !Matches(x, RouteChange, None)
    ensures Stripped(kept + [EndRegistration(currentItem), StalledRegistration, RouteRegistration], currentItem) == kept
  {
    var e, s, rc := EndRegistration(currentItem), StalledRegistration, RouteRegistration;
    RemoveMatchingAfterKept(kept, [e, s, rc], DidPlayToEndTime, currentItem);
    EndRemovalOfNewEntries(currentItem);
    RemoveMatchingAfterKept(kept, [s, rc], PlaybackStalled, None);
    StalledRemovalOfNewEntries();
    RemoveMatchingAfterKept(kept, [rc], RouteChange, None);
    RemoveMatchingSingle(rc, RouteChange, None);
    assert kept + [] == kept;
  }

  /** Attaching twice for the same current item leaves the same entries as
      attaching once. */
  lemma AttachedIdempotent(regs: seq<Registration>, currentItem: Option<ItemId>)
    ensures Attached(Attached(regs, currentItem), currentItem) == Attached(regs, currentItem)
  {
    var tail := [EndRegistration(currentItem), StalledRegistration, RouteRegistration];
    var kept := Stripped(regs, currentItem);
    AttachedShape(regs, currentItem);
    StrippedMatchesNothing(regs, currentItem);
    AttachedShape(kept + tail, currentItem);
    StrippedAfterAttach(kept, currentItem);
  }

  /** After attaching, every stalled and route-change notification is
      received, and an end-of-item notification is received when it is
      about the item attached to (or any item, when none was). */
  lemma AttachedReceives(regs: seq<Registration>, currentItem: Option<ItemId>, n: Notification)
    requires n.name != DidPlayToEndTime || currentItem.None? || n.sender == currentItem
    ensures exists r :: r in Attached(regs, currentItem) && Receives(r, n)
  {
    AttachedShape(regs, currentItem);
    var a := Attached(regs, currentItem);
    var k := |a|;
    match n.name
    case DidPlayToEndTime =>
      assert a[k - 3] == EndRegistration(currentItem);
      assert Receives(a[k - 3], n);
    case PlaybackStalled =>
      assert a[k - 2] == StalledRegistration;
      assert Receives(a[k - 2], n);
    case RouteChange =>
      assert a[k - 1] == RouteRegistration;
      assert Receives(a[k - 1], n);
  }

  /** Everything about an observer a call can change, as one value. */
  datatype ObserverState = ObserverState(
    player: Option<EngineId>, playerItem: Option<ItemId>,
    playerObservation: Option<EngineId>, itemObservation: Option<ItemId>,
    timeObserver: Option<EngineId>, timeLog: seq<TimeObserverCall>,
    registrations: seq<Registration>)

  /** The observer an iOS session owns. Key-value observations are grouped:
      `playerObservation` stands for the rate and external-playback tokens,
      `itemObservation` for the five item tokens; each holds the engine or
      item its tokens are live on, `None` once invalidated. */
  class PlayerObserver {
    /** Whether the (weak) handler is set. */
    const hasHandler: bool
    var player: Option<EngineId>
    var playerItem: Option<ItemId>
    var playerObservation: Option<EngineId>
    var itemObservation: Option<ItemId>
    /** The periodic time observer token, with the engine it was added to. */
    var timeObserver: Option<EngineId>
    /** How many periodic observers this observer has added to an engine
        and not yet removed from it. */
    ghost var installedTimeObservers: nat
    /** The time-observer calls made on engines, in order. */
    ghost var timeLog: seq<TimeObserverCall>
    /** The handler's entries in the notification center. */
    var registrations: seq<Registration>

    /** Observations are only ever live on the current player and item, and
        at most one periodic observer is installed: the one the token names,
        on the current player. */
    ghost predicate Valid()
      reads this
    {
      && (playerObservation.Some? ==> playerObservation == player)
      && (itemObservation.Some? ==> itemObservation == playerItem)
      && (timeObserver.Some? ==> timeObserver == player)
      && installedTimeObservers == (if timeObserver.Some? then 1 else 0)
    }

    /** The observer's current state. */
    ghost function State(): ObserverState
      reads this
    {
      ObserverState(player, playerItem, playerObservation, itemObservation, timeObserver, timeLog, registrations)
    }

    constructor (handler: bool)
      ensures Valid() && hasHandler == handler
      ensures player.None? && playerItem.None? && playerObservation.None? && itemObservation.None?
      ensures timeObserver.None? && registrations == [] && timeLog == []
    {
      hasHandler := handler;
      player, playerItem := None, None;
      playerObservation, itemObservation, timeObserver := None, None, None;
      installedTimeObservers := 0;
      timeLog := [];
      registrations := [];
    }

    /** `addPlayerObservers`: observes the current player, if there is one
        and a handler to report to. */
    method AddPlayerObservers()
      requires Valid()
      modifies this
      ensures Valid()
      ensures playerObservation == (if player.Some? && hasHandler then player else old(playerObservation))
      ensures player == old(player) && playerItem == old(playerItem) && itemObservation == old(itemObservation)
      ensures timeObserver == old(timeObserver) && registrations == old(registrations)
      ensures installedTimeObservers == old(installedTimeObservers) && timeLog == old(timeLog)
    {
      if player.None? || !hasHandler {
        return;
      }
      playerObservation := player;
    }

    /** `removePlayerObservers`: invalidates the player tokens. */
    method RemovePlayerObservers()
      requires Valid()
      modifies this
      ensures Valid() && playerObservation.None?
      ensures player == old(player) && playerItem == old(playerItem) && itemObservation == old(itemObservation)
      ensures timeObserver == old(timeObserver) && registrations == old(registrations)
      ensures installedTimeObservers == old(installedTimeObservers) && timeLog == old(timeLog)
    {
      playerObservation := None;
    }

    /** `addPlayerItemObservers`: observes the current item, if there is one
        and a handler to report to. */
    method AddPlayerItemObservers()
      requires Valid()
      modifies this
      ensures Valid()
      ensures itemObservation == (if playerItem.Some? && hasHandler then playerItem else old(itemObservation))
      ensures player == old(player) && playerItem == old(playerItem) && playerObservation == old(playerObservation)
      ensures timeObserver == old(timeObserver) && registrations == old(registrations)
      ensures installedTimeObservers == old(installedTimeObservers) && timeLog == old(timeLog)
    {
      if playerItem.None? || !hasHandler {
        return;
      }
      itemObservation := playerItem;
    }

    /** `removePlayerItemObservers`: invalidates the item tokens. */
    method RemovePlayerItemObservers()
      requires Valid()
      modifies this
      ensures Valid() && itemObservation.None?
      ensures player == old(player) && playerItem == old(playerItem) && playerObservation == old(playerObservation)
      ensures timeObserver == old(timeObserver) && registrations == old(registrations)
      ensures installedTimeObservers == old(installedTimeObservers) && timeLog == old(timeLog)
    {
      itemObservation := None;
    }

    /** `removePlayerTimeObserver`: acts only when there is a token; removes
        it from the player and leaves no token, so a second call does nothing. */
    method RemovePlayerTimeObserver()
      requires Valid()
      modifies this
      ensures Valid() && timeObserver.None? && installedTimeObservers == 0
      ensures old(timeObserver).None? ==> unchanged(this)
      ensures timeLog == old(timeLog) + TokenRemoval(old(timeObserver))
      ensures player == old(player) && playerItem == old(playerItem)
      ensures playerObservation == old(playerObservation) && itemObservation == old(itemObservation)
      ensures registrations == old(registrations)
    {
      if timeObserver.Some? {
        if player.Some? {
          installedTimeObservers := installedTimeObservers - 1;
          timeLog := timeLog + [RemoveTimeObserver(player.value)];
        }
        timeObserver := None;
      }
    }

    /** `addPlayerTimeObserver`: with a handler, removes any existing periodic
        observer before adding one, at the progress interval, to the current
        player (none without a player), so there is never more than one. */
    method AddPlayerTimeObserver()
      requires Valid()
      modifies this
      ensures Valid() && installedTimeObservers <= 1
      ensures hasHandler ==> timeObserver == player
      ensures hasHandler ==>
        timeLog == old(timeLog) + TokenRemoval(old(timeObserver))
          + (if player.Some? then [AddPeriodicTimeObserver(player.value, ProgressIntervalSeconds())] else [])
      ensures !hasHandler ==> unchanged(this)
      ensures player == old(player) && playerItem == old(playerItem)
      ensures playerObservation == old(playerObservation) && itemObservation == old(itemObservation)
      ensures registrations == old(registrations)
    {
      if !hasHandler {
        return;
      }
      RemovePlayerTimeObserver();
      if player.Some? {
        timeObserver := player;
        installedTimeObservers := installedTimeObservers + 1;
        timeLog := timeLog + [AddPeriodicTimeObserver(player.value, ProgressIntervalSeconds())];
      }
    }

    /** Assigning `player`: `willSet` tears down the player observations and
        the time observer, `didSet` re-adds both only for a non-nil player. */
    method SetPlayer(p: Option<EngineId>)
      requires Valid()
      modifies this
      ensures Valid() && player == p
      ensures playerObservation == (if p.Some? && hasHandler then p else None)
      ensures timeObserver == (if p.Some? && hasHandler then p else None)
      ensures timeLog ==
        old(timeLog) + TokenRemoval(old(timeObserver))
          + (if p.Some? && hasHandler then [AddPeriodicTimeObserver(p.value, ProgressIntervalSeconds())] else [])
      ensures playerItem == old(playerItem) && itemObservation == old(itemObservation)
      ensures registrations == old(registrations)
    {
      RemovePlayerObservers();
      RemovePlayerTimeObserver();
      player := p;
      if p.Some? {
        AddPlayerObservers();
        AddPlayerTimeObserver();
      }
    }

    /** Assigning `playerItem`: `willSet` tears down the item observations,
        `didSet` re-adds them only for a non-nil item. */
    method SetPlayerItem(i: Option<ItemId>)
      requires Valid()
      modifies this
      ensures Valid() && playerItem == i
      ensures itemObservation == (if i.Some? && hasHandler then i else None)
      ensures player == old(player) && playerObservation == old(playerObservation)
      ensures timeObserver == old(timeObserver) && registrations == old(registrations) && timeLog == old(timeLog)
    {
      RemovePlayerItemObservers();
      playerItem := i;
      if i.Some? {
        AddPlayerItemObservers();
      }
    }

    /** `attachPlayerEventListeners`, given the player's current item: with a
        handler, each of the three notifications is removed before it is
        added again. */
    method AttachPlayerEventListeners(currentItem: Option<ItemId>)
      requires Valid()
      modifies this
      ensures Valid()
      ensures registrations == if hasHandler then Attached(old(registrations), currentItem) else old(registrations)
      ensures player == old(player) && playerItem == old(playerItem)
      ensures playerObservation == old(playerObservation) && itemObservation == old(itemObservation)
      ensures timeObserver == old(timeObserver) && timeLog == old(timeLog)
    {
      if !hasHandler {
        return;
      }
      registrations := RemoveMatching(registrations, DidPlayToEndTime, currentItem);
      registrations := registrations + [EndRegistration(currentItem)];
      registrations := RemoveMatching(registrations, PlaybackStalled, None);
      registrations := registrations + [StalledRegistration];
      registrations := RemoveMatching(registrations, RouteChange, None);
      registrations := registrations + [RouteRegistration];
    }

    /** `clearPlayer`: no player, no item, no observation of either, no time
        observer and (with a handler) no notification entries. */
    method ClearPlayer()
      requires Valid()
      modifies this
      ensures Valid()
      ensures player.None? && playerItem.None? && playerObservation.None? && itemObservation.None?
      ensures timeObserver.None? && installedTimeObservers == 0
      ensures timeLog == old(timeLog) + TokenRemoval(old(timeObserver))
      ensures registrations == if hasHandler then [] else old(registrations)
    {
      SetPlayer(None);
      SetPlayerItem(None);
      if hasHandler {
        registrations := [];
      }
    }
  }
}

=== FILE: source_equality.dfy ===
/** src/sourceEqualityFn.ts: shallow equality of string-keyed records,
    and the source comparison built on it. */
module SourceEquality {
  import opened Wrappers
  import opened Values

  /** `validObjectValue`: a string-keyed record, `null` or `undefined`.
      A record is never falsy; `null` and `undefined` always are. */
  datatype ObjectValue = Undef | Nil | Record(props: map<string, Value>)

  /** `SourceType`: a url and optional headers (`undefined` when absent). */
  datatype Source = Source(url: string, headers: ObjectValue)

  /** What `shallowEqualObjects` decides: a value is equal to itself
      (`null`/`undefined` by identity), two records are equal when they have
      as many keys and every key of the first is an own key of the second
      with a strictly equal value, and nothing else is equal. */
  predicate ShallowEqual(a: ObjectValue, b: ObjectValue) {
    match (a, b)
    case (Undef, Undef) => true
    case (Nil, Nil) => true
    case (Record(pa), Record(pb)) =>
      |pa.Keys| == |pb.Keys| && forall key :: key in pa ==> key in pb && pa[key] == pb[key]
    case _ => false
  }

  /** A set inside another of the same size is that set. */
  lemma SubsetOfSameSize<T>(s: set<T>, t: set<T>)
    requires s <= t && |s| == |t|
    ensures s == t
  {
    if s != t {
      var x :| x in t && x !in s;
      assert s <= t - {x};
      SubsetSize(s, t - {x});
      assert false;
    }
  }

  /** A subset is no larger than the set it is in. */
  lemma {:induction false} SubsetSize<T>(s: set<T>, t: set<T>)
    requires s <= t
    ensures |s| <= |t|
    decreases t
  {
    if s != {} {
      var x :| x in s;
      SubsetSize(s - {x}, t - {x});
    }
  }

  /** The one-directional key check with equal key counts is full equality:
      shallow equality holds exactly between equal values. */
  lemma ShallowEqualIsEquality(a: ObjectValue, b: ObjectValue)
    ensures ShallowEqual(a, b) <==> a == b
  {
    if a.Record? && b.Record? && ShallowEqual(a, b) {
      SubsetOfSameSize(a.props.Keys, b.props.Keys);
      assert a.props == b.props;
    }
  }

  /** Shallow equality is symmetric, although the key loop only walks the
      keys of its first argument. */
  lemma ShallowEqualSymmetric(a: ObjectValue, b: ObjectValue)
    ensures ShallowEqual(a, b) == ShallowEqual(b, a)
  {
    ShallowEqualIsEquality(a, b);
    ShallowEqualIsEquality(b, a);
  }

  /** `shallowEqualObjects`: identical values are equal; otherwise a falsy
      side, a different key count, or a key of `a` whose value differs
      from `b`'s or which `b` does not own makes them unequal. */
  method ShallowEqualObjects(a: ObjectValue, b: ObjectValue) returns (r: bool)
    ensures r == ShallowEqual(a, b)
    ensures r <==> a == b
    ensures a.Record? != b.Record? ==> !r
    ensures a.Record? && b.Record? && |a.props.Keys| != |b.props.Keys| ==> !r
  {
    ShallowEqualIsEquality(a, b);
    // For records, `===` only holds of one record compared with itself,
    // where the key walk below gives the same answer.
    if a == b {
      return true;
    }
    if !a.Record? || !b.Record? {
      return false;
    }
    var aKeys := a.props.Keys;
    if |b.props.Keys| != |aKeys| {
      return false;
    }
    var remaining := aKeys;
    while remaining != {}
      invariant remaining <= aKeys
      invariant forall key :: key in aKeys && key !in remaining ==> key in b.props && a.props[key] == b.props[key]
      decreases remaining
    {
      var key :| key in remaining;
      if a.props[key] != Get(b.props, key) || key !in b.props {
        return false;
      }
      remaining := remaining - {key};
    }
    return true;
  }

  /** `sourceEqualityFn`: two present sources with the same url and
      shallow-equal headers. A missing source on either side, even on both,
      makes them unequal. */
  function SourceEqual(prev: Option<Source>, next: Option<Source>): (r: bool)
    ensures r <==> prev.Some? && next.Some? && prev == next
  {
    ShallowEqualIsEquality(if prev.Some? then prev.value.headers else Undef, if next.Some? then next.value.headers else Undef);
    prev.Some? && next.Some? && prev.value.url == next.value.url
    && ShallowEqual(prev.value.headers, next.value.headers)
  }

  /** Two sources that both lack headers compare by url alone. */
  lemma SourcesWithoutHeaders(url: string, url': string)
    ensures SourceEqual(Some(Source(url, Undef)), Some(Source(url', Undef))) <==> url == url'
  {
  }
}

=== FILE: sources.dfy ===
/** The source descriptor JavaScript hands to a native `setSource`, as
    both native sides read it. */
module Sources {
  import opened Wrappers

  /** The dictionary handed to `setSource`. An entry that is absent, or
      (on iOS) fails its cast (`as? String`, `as? [String: String]`,
      `as? Bool`, `as? NSNumber`), is `None`. */
  datatype SourceDict = SourceDict(
    url: Option<string>,
    headers: Option<map<string, string>>,
    autoplay: Option<bool>,
    volume: Option<real>)
}

=== FILE: values.dfy ===
/** Dynamically typed values as they cross the React Native bridge: the
    payload entries of native events (`[String: Any]`, `WritableMap`) and the
    arguments the JavaScript wrapper receives. */
module Values {

  /** A bridge value. Numbers are exact reals (no rounding, no NaN); `Ref`
      stands for an object or function, compared by identity; `BoxedTime`
      is a native `NSValue` wrapping a time (seconds), which is an object
      and not a number. */
  datatype Value =
    | Undefined | Null | Bool(b: bool) | Num(n: real) | Str(s: string) | Ref(id: nat)
    | BoxedTime(seconds: real)

  /** A JavaScript object / native dictionary with string keys. */
  type Body = map<string, Value>

  /** JavaScript truthiness (`!v` is `!Truthy(v)`); objects are always truthy. */
  predicate Truthy(v: Value) {
    match v
    case Undefined => false
    case Null => false
    case Bool(b) => b
    case Num(n) => n != 0.0
    case Str(s) => s != ""
    case Ref(_) => true
    case BoxedTime(_) => true
  }

  /** Property access `obj[key]`: a missing key reads as `undefined`. */
  function Get(obj: Body, key: string): Value {
    if key in obj then obj[key] else Undefined
  }
}

=== FILE: wrappers.dfy ===
/** The optional value used wherever the source has a nullable reference,
    an optional dictionary entry or a failed cast (`as?`). */
module Wrappers {

  datatype Option<+T> = None | Some(value: T) {

    /** The value, or `default` when there is none (Swift's `??`). */
    function GetOr(default: T): T {
      if Some? then value else default
    }
  }
}
